=== FILE: README.md ===
# Script runner core, modelled in Dafny

The repository is a small compliance-script runner. An operator browses a
directory of `.sh`/`.py` check ("chk") and remediation ("rem") scripts and
runs them, reading their captured output and a PASS/FAIL status list. The
same pipeline appears in four entry files:

- `main2.py`: the multi-selection window whose scripts run on
  `ScriptWorker` threads;
- `main.py`: the multi-selection window that runs scripts one after the
  other, with "Complete Check" and "Complete Fix" batches;
- `app.py`: the single-selection window;
- `cis-auditor.py`: the terminal menu built on `questionary`.

The model keeps each entry point as its own Dafny module, over a shared
vocabulary:

- `Text`: optional values, Python's `w in s` on strings, and Python's
  ordering of names.
- `FileSystem`: the disk as an immutable tree (`File(name)` or
  `Dir(name, entries)`), paths as sequences of names, `Lookup` for
  `exists`/`is_dir`/`is_file`, a pre-order walk for `rglob('*')`, and the
  two suffix rules the code uses (`Path.suffix` and `os.path.splitext`).
- `Catalog`: `populate_tree` and its recursive `add_items`, shared by the
  three windows.
- `Resolver`: folder expansion, the selection loop and the keyword search.
- `Execution`: the command each script gets, the process oracle
  (`Runner`, from a command to the exit code, stdout and stderr that
  `subprocess.run` captured), and the FAIL verdict with its status line.
- `Gui`: a window as its output pane (a list of blocks; `setText` replaces
  it and `append` adds a block), its status list, and the processes it
  started.
- `ThreadedExecutor` (main2.py), `SequentialExecutor` (main.py),
  `SingleScriptExecutor` (app.py) and `CisAuditor` (cis-auditor.py).

The terminal menu is a function of the list of replies `ask()` returns,
one per prompt. Each reply is a picked choice, a yes/no answer, or `None`
for a dismissed prompt. The result is how the dialogue stops (exit code,
uncaught exception, or waiting for another reply), the log of what was
shown, printed and started, and the unread replies. The code's `==` tests
and truth tests are followed literally. In the main and subdirectory menus,
a reply that names no choice ends in the `StopIteration` raised by
`next(...)`. In the script menu the confirm prompt comes first: after a
falsy confirm the menu prints "Cancelled. Returning to subdirectory menu."
and `next(...)` never runs; only after a truthy confirm does a reply that
names no script end in `StopIteration`.

Behaviours of the code that the model keeps:

- The run list keeps repeats: a script picked directly and through its
  folder runs twice.
- main2.py classifies the text its worker stores. After a non-zero exit
  that text is the error banner, so the status line still appears and
  reads FAIL only when the script's name, its stderr or its stdout holds
  `FAIL`.
- main.py and app.py add no status line after a non-zero exit.
- app.py checks neither that the selection exists nor that it is a file.
  A supported name the tree does not hold is still started.
- app.py's PASS line has no space after the colon.
- The terminal menu navigates straight into a directory picked from the
  main menu. So a direct child of `BASE_DIR` is never offered as a
  script menu, even when it is a leaf: its menu lists only "Back" and
  "Exit", and a reply naming one of its scripts raises `StopIteration`.
- main.py's keyword batches search `./scripts/ubuntu/v22`, while its tree
  shows `./scripts/ubuntu/v22.04`. Both bases are parameters here.

## Model

| member | source | states |
|---|---|---|
| `Text.ContainsIffOccurs` | main2.py:105 | Python's `'FAIL' in text`, as modelled, holds exactly when `FAIL` occurs at some index of the text. |
| `FileSystem.BeneathExact` | main2.py:111 | `rglob('*')` from a base yields exactly the entries strictly beneath it, each with the node stored there; a missing base yields nothing. |
| `FileSystem.BeneathDistinct` | main2.py:111 | In a tree where no directory holds two entries of the same name, `rglob('*')` yields each path at most once. |
| `FileSystem.SupportedIffEnding` | main2.py:88 | A name passes the `{".sh", ".py"}` suffix gate exactly when it ends in `.sh` or `.py` with at least one character before the dot. |
| `FileSystem.SplitExtAgreesOnPlainScripts` | cis-auditor.py:29 | For a supported name that does not start with a dot, `os.path.splitext` finds the same extension as `Path.suffix`. |
| `FileSystem.SuffixRulesDisagree` | cis-auditor.py:29-36 | The two suffix rules differ on `..sh`: the windows accept it as a shell script, while the terminal menu finds no extension and rejects it. |
| `Catalog.SortByName` | main2.py:52 | `sorted(path.iterdir())` returns the same entries, as a multiset, in name order. |
| `Catalog.PopulateTree` | main2.py:29-44 | A missing base writes "Error: Directory '<base>' not found." and builds nothing; a base that is a file raises; otherwise the built tree mirrors the directory. |
| `Catalog.ChildrenInOrder` | main2.py:50-57 | A directory's item has one child per entry, every entry's name among them, in name order. |
| `Catalog.BuiltTreeMirrors` | main2.py:50-57 | At every level, each item stores its full path and shows its last name; file items have no children; each child mirrors one entry of its directory. |
| `Resolver.FolderScriptsExact` | main2.py:108-114 | `get_scripts_in_folder` returns exactly the `.sh`/`.py` files strictly beneath the folder, at any depth, each once: no directory, nothing outside it and no repeats. |
| `Resolver.Resolve` | main2.py:66-72 | Everything the selection loop collects passes the `.sh`/`.py` gate of `execute_script`. |
| `Resolver.ResolveMembers` | main2.py:66-72 | A path is in the run list exactly when some selected path brings it: the path itself if it is a supported file, or a selected folder it lies beneath. |
| `Resolver.ResolveAppend` | main2.py:67-72 | The run list keeps selection order: resolving two selections in turn is resolving their concatenation. |
| `Resolver.UnsupportedOnlyResolvesEmpty` | main2.py:71-75 | A selection made only of files with other suffixes resolves to nothing. |
| `Resolver.SelectedTwiceRunsTwice` | main2.py:66-72 | There is no de-duplication: a script selected directly and through its folder appears exactly twice in the run list. |
| `Resolver.ScriptsByNameExact` | main2.py:124-133 | The keyword search finds exactly the files strictly beneath the base whose name contains the keyword, each once, whatever their suffix. |
| `Execution.Interpreter` | cis-auditor.py:30-36 | `.sh` maps to bash, `.py` to python3, and every other extension has no interpreter. |
| `Execution.CommandFor` | main.py:83-86 | A supported script runs as `[bash, path]` exactly when its suffix is `.sh`, and as `[python3, path]` exactly when it is `.py`. |
| `Execution.StatusLineShowsVerdict` | main2.py:105 | The status line starts with "<name>: " and reads FAIL exactly when the verdict is FAIL. |
| `ThreadedExecutor.WorkerCommand` | main2.py:155 | The worker runs bash exactly for a `.sh` suffix and python3 otherwise, on the script's path; for a supported script this is the shared dispatch. |
| `ThreadedExecutor.WorkerVerdict` | main2.py:152-159 | The text the worker stores reads FAIL on a zero exit exactly when stdout does, and otherwise exactly when the name, stderr or stdout holds `FAIL`. A non-zero exit alone never makes it FAIL. |
| `ThreadedExecutor.Submit` | main2.py:86-99 | An unsupported script appends "Error: Unsupported script type for <name>." at once and starts nothing; a supported one starts its interpreter and adds nothing yet. |
| `ThreadedExecutor.HandleOutput` | main2.py:101-106 | A worker's result appends its text and one status line carrying the verdict of that run, and starts nothing. |
| `ThreadedExecutor.SubmitAll` | main2.py:81-99 | The loop of a batch appends the errors of its unsupported scripts, in list order, starts the processes of its supported ones, in list order, and adds no status line. |
| `ThreadedExecutor.DeliverAll` | main2.py:95-106 | Handling a batch's worker results appends one text and one status line per supported script and starts nothing. |
| `ThreadedExecutor.RunScripts` | main2.py:81-106 | A batch's output is all its unsupported-type errors, then all its worker texts; its processes and status lines are those of its supported scripts. |
| `ThreadedExecutor.AllSupportedAllReport` | main2.py:86-106 | When every script is supported, no error is appended and each script adds one status line. |
| `ThreadedExecutor.AllSupportedReports` | main2.py:95-106 | When every script is supported, the pane gains each script's own worker text, in list order. |
| `ThreadedExecutor.ErrorsBeforeReports` | main2.py:81-106 | For the list `a.sh`, `b.c` the pane shows the error for `b.c` before the text of `a.sh`. |
| `ThreadedExecutor.AllSupportedOnly` | main2.py:66-93 | A resolved selection never hits the unsupported-type error. |
| `ThreadedExecutor.ExecuteSelected` | main2.py:59-79 | An empty selection writes "Error: No script or folder selected.", an empty run list writes "Error: No valid scripts selected.", and neither starts anything; otherwise the output gains exactly the worker texts of the run list. |
| `ThreadedExecutor.SelectedAllRun` | main2.py:59-79 | Every script of a non-empty run list starts exactly its own interpreter, in run-list order, and adds one status line. |
| `ThreadedExecutor.RunScriptsByKeyword` | main2.py:116-122 | No match appends "No scripts found for '<keyword>'." and starts nothing; otherwise every match runs as one batch, its unsupported-type errors first. |
| `ThreadedExecutor.MissingBaseFindsNothing` | main2.py:116-133 | With no base directory, a keyword batch only appends its not-found message: no process starts and no status line is added. |
| `SequentialExecutor.ExecuteScript` | main.py:76-93 | Each script appends one block: the unsupported-type error, stdout on a zero exit, or the error banner. |
| `SequentialExecutor.StatusOnlyOnSuccess` | main.py:88-100 | A supported script adds a status line exactly when it exits with 0, and that line reads FAIL exactly when stdout holds `FAIL`. |
| `SequentialExecutor.RunInOrder` | main.py:72-74 | Scripts run one after the other: the output gains one block per script, in list order. |
| `SequentialExecutor.RunInOrderLaunches` | main.py:72-86 | A batch starts its supported scripts' interpreters, in list order. |
| `SequentialExecutor.RunInOrderStatuses` | main.py:72-100 | A batch adds status lines only for the scripts that exited with 0, in list order. |
| `SequentialExecutor.SameTextAsThreaded` | main.py:72-98 | A batch in main.py writes the same texts as in main2.py, as a multiset; only the order can differ. |
| `SequentialExecutor.SameTextWhenSupported` | main.py:72-98 | When every script is supported, both windows write the same texts in the same order. |
| `SequentialExecutor.StatusesPartWays` | main.py:88-100 | After a zero exit both windows add the same status line; after a non-zero exit main.py adds none while main2.py adds one. |
| `SequentialExecutor.ExecuteSelected` | main.py:50-74 | The same two error outcomes as main2.py, then the run list runs in order. |
| `SequentialExecutor.SelectedEachLaunched` | main.py:50-74 | Every resolved script starts its own interpreter once, in run-list order. |
| `SequentialExecutor.RunByKeyword` | main.py:110-126 | A batch with no match appends "No scripts found for '<keyword>'."; otherwise every match runs in order. |
| `SequentialExecutor.CompleteCheck` | main.py:110-117 | With no "chk" match it only appends "No scripts found for 'chk'."; otherwise it runs every match in order, adding their blocks, processes and status lines. |
| `SequentialExecutor.CompleteFix` | main.py:119-126 | The same for "rem", with "No scripts found for 'rem'.". |
| `SequentialExecutor.CheckBatchScope` | main.py:110-137 | The check batch's list is exactly the files under its search base whose name contains "chk", each once, whatever their suffix. It says nothing about running them: `SequentialExecutor.ExecuteScript` gives a listed file without `.sh`/`.py` only the unsupported-type error. |
| `SequentialExecutor.FixBatchScope` | main.py:119-137 | The fix batch's list is exactly the files under its search base whose name contains "rem", each once, whatever their suffix. It says nothing about running them: `SequentialExecutor.ExecuteScript` gives a listed file without `.sh`/`.py` only the unsupported-type error. |
| `SequentialExecutor.MissingSearchBase` | main.py:110-137 | With no search base on disk, "Complete Check" and "Complete Fix" only append "No scripts found for 'chk'." and "No scripts found for 'rem'.". |
| `SingleScriptExecutor.AppStatusLineDiffers` | app.py:76-77 | app.py's FAIL line matches the other windows', its PASS line does not, and its two lines never coincide. |
| `SingleScriptExecutor.ExecuteSelectedScript` | app.py:45-79 | Every outcome replaces the output pane. No item, a directory and an unsupported suffix each write their own error and start nothing; otherwise exactly one process starts, and at most one status line is added, only after a start. |
| `SingleScriptExecutor.RunOutcome` | app.py:61-79 | A runnable selection starts bash for `.sh` and python3 for `.py`. A zero exit shows stdout and adds the status line; a non-zero exit shows "Error executing script:\n<stderr>" and adds none. |
| `SingleScriptExecutor.RunsExactly` | app.py:52-70 | A selection starts a process exactly when it is a supported file, or a supported name the tree does not hold. |
| `CisAuditor.DiscoverSubdirectories` | cis-auditor.py:12-20 | A missing path is reported as missing, and a regular file as not a directory; anything else is listed. |
| `CisAuditor.SubdirectoriesExact` | cis-auditor.py:12-20 | The listing holds exactly the immediate subdirectories: paths one name below the directory where the tree holds a directory. |
| `CisAuditor.ScriptsExact` | cis-auditor.py:22-25 | The scripts of a directory are exactly its immediate `.sh`/`.py` files; nothing deeper is found. |
| `CisAuditor.FirstNamed` | cis-auditor.py:63 | `next(...)` succeeds exactly when the reply is a string naming some entry, and it returns the first entry with that name. |
| `CisAuditor.SubdirChoices` | cis-auditor.py:50 | The subdirectory menu lists the names in order, then "Back", then "Exit". |
| `CisAuditor.MainChoices` | cis-auditor.py:98 | The main menu lists the names in order, then "Exit". |
| `CisAuditor.ScriptChoices` | cis-auditor.py:74 | The script menu lists the script names in order, then "Back to Parent Directory". |
| `CisAuditor.RunScript` | cis-auditor.py:27-43 | An extension other than `.sh` and `.py` prints "Error: Unsupported script type '<ext>'." and starts nothing. |
| `CisAuditor.RunScriptDispatch` | cis-auditor.py:27-43 | A recognised extension prints "Running: <path>", starts exactly its interpreter, then prints stdout or "Error executing <path>: <stderr>". |
| `CisAuditor.Navigate` | cis-auditor.py:45-91 | The navigation loop only ends by returning, exiting, crashing or waiting for a reply. |
| `CisAuditor.TuiMain` | cis-auditor.py:93-113 | The main loop never returns normally: it exits, crashes or waits for a reply. |
| `CisAuditor.MissingBaseExits` | cis-auditor.py:12-17 | A missing base prints "Error: Directory '<base>' does not exist." and exits with 1 before any prompt. |
| `CisAuditor.FixedChoicesFirst` | cis-auditor.py:57-63 | "Back" returns and "Exit" prints "Exiting..." and exits with 0, even when a subdirectory has that name; a dismissed menu crashes. |
| `CisAuditor.NavigateLeafMenus` | cis-auditor.py:45-91 | At every depth of the navigation, a script menu is shown only for a directory without subdirectories that holds at least one script. |
| `CisAuditor.TuiMainLeafMenus` | cis-auditor.py:66-72 | In every dialogue, a chosen directory with subdirectories is always navigated into and never offered as a script menu; every script menu belongs to a leaf that holds scripts. |
| `CisAuditor.EmptyLeafNotice` | cis-auditor.py:90-91 | A leaf without scripts prints "No scripts found in '<name>'. Returning to parent subdirectory." and asks nothing. |
| `CisAuditor.NavigateConsumes` | cis-auditor.py:45-91 | Each reply the navigation reads answers exactly one prompt it shows, and the replies left are a suffix of those given. |
| `CisAuditor.TuiMainConsumes` | cis-auditor.py:93-113 | The same one-reply-per-prompt accounting holds for the whole dialogue. |
| `CisAuditor.ScriptsBelow` | cis-auditor.py:22-25 | Every script a directory's menu offers is a child of that directory. |
| `CisAuditor.ConfirmedRun` | cis-auditor.py:83-87 | After a truthy confirm for the child of the menu's directory that the menu named, every process started is that script's, right after "Running: <path>". |
| `CisAuditor.OfferScriptsBehaved` | cis-auditor.py:72-89 | In one script menu, a process starts only after a truthy confirm for the child of that directory the menu named, and a falsy confirm prints "Cancelled. Returning to subdirectory menu.". |
| `CisAuditor.NavigateBehaved` | cis-auditor.py:45-91 | The confirm and cancel rules hold in every navigation, at every depth, and an exit follows its message. |
| `CisAuditor.TuiMainBehaved` | cis-auditor.py:93-113 | In every dialogue, every process start is confirmed, for a script of the directory whose menu named it, and every refusal is acknowledged. Exit 0 comes right after "Exiting...", and exit 1 right after a missing-directory error. |

## Left out

- Qt plumbing (widgets, signals, `expandAll`, selection modes, the exit
  button) and the generated layouts in improved_ui.py and improved_ui3.py.
  Only the output pane, the status list and the started processes are
  modelled.
- The `QThread` worker of main2.py: the model takes each worker's
  `finished` signal to be queued to the window's thread, so it is handled
  after the loop of `run_scripts` returns. Results are then handled in
  submission order, while the program handles them in completion order.
  `ScriptWorker` declares its own `finished` signal, which `run` never
  emits; whether Qt still calls the handler is not modelled.
- Real processes: each run is an oracle from the command to the captured
  exit code, stdout and stderr. Launch failures, such as a missing
  interpreter, are not caught by the code and are not modelled.
- Output that is not valid text: every `subprocess.run` call passes
  `text=True`, so undecodable output raises `UnicodeDecodeError`, which
  nothing catches. In main2.py the worker then keeps its initial `""`
  result, so the pane gains an empty block and a false "<name>: PASS". In
  main.py the rest of the batch is abandoned, app.py's click fails, and
  the terminal menu crashes. The oracle always returns decoded text.
- Symbolic links and unreadable directories: the tree holds only files
  and directories. The tree builders recurse on `is_dir()`, which follows
  links, so a link cycle recurses until `RecursionError`. An unreadable
  directory makes `iterdir` raise `PermissionError`, which nothing
  catches. `rglob('*')` does not descend into linked directories and
  skips unreadable ones. So a script under a linked
  directory shows in the tree but does not run when its ancestor folder
  is selected. The discovery properties hold for trees without links or
  unreadable directories.
- Directory listing order: `iterdir` and `rglob` order is up to the OS.
  The model walks entries in tree order, and every discovery property is
  stated as membership. Only `sorted(...)` in the tree builder fixes an
  order.
- Name ordering: `sorted` compares names by code point, with no locale or
  case folding.
- Hard-coded base directories: the tree base, main.py's keyword search
  base and `BASE_DIR` are parameters.
- `get_input_from_user` in main2.py: nothing calls it.
- Logging configuration.
- Prompt titles of the terminal menu: only the choices and replies are
  recorded.
- Side effects of the scripts on the tree: the tree is fixed during a run.
- Python's recursion limit on very deep trees and menus.
- `SequentialExecutor.ExecuteScript`: its contract states only the output
  pane; `SequentialExecutor.ExecuteScriptReports` (an unsupported suffix
  starts nothing and adds no status line, a supported one starts its
  interpreter once), `SequentialExecutor.StatusOnlyOnSuccess` and
  `SequentialExecutor.RunInOrderLaunches` state the rest.
- `CisAuditor.Navigate`: its contract states only how it stops; reply
  accounting and the confirm discipline are stated by
  `CisAuditor.NavigateConsumes` and `CisAuditor.NavigateBehaved`.

=== FILE: catalog.dfy ===
/** The tree the GUI variants show: `populate_tree` and its recursive
    `add_items`, identical in main2.py, main.py and app.py. Each directory's
    entries are listed in `sorted(...)` order; only directories are recursed
    into, so a file's item never has children. */
module Catalog {
  import opened Text
  import opened FileSystem

  /** One row of the tree widget: its text and the full path it stores. */
  datatype TreeItem = TreeItem(text: string, path: Path, children: seq<TreeItem>)

  /** What `populate_tree` leaves behind: the not-found message it writes to
      the output pane, the tree it builds, or the `NotADirectoryError` that
      `iterdir` raises (uncaught) when the base is a regular file. */
  datatype Populated = NotFound(message: string) | Built(root: TreeItem) | BaseIsFile

  predicate SortedByName(s: seq<Node>)
  {
    forall i, j :: 0 <= i < j < |s| ==> NameLe(s[i].name, s[j].name)
  }

  /** Places `x` before the first entry it does not sort after. */
  function Insert(x: Node, s: seq<Node>): (r: seq<Node>)
    ensures multiset(r) == multiset(s) + multiset{x}
  {
    if s == [] then [x]
    else if NameLe(x.name, s[0].name) then [x] + s
    else
      var rest := Insert(x, s[1..]);
      assert multiset(s) == multiset{s[0]} + multiset(s[1..]) by {
        assert s == [s[0]] + s[1..];
      }
      [s[0]] + rest
  }

  /** Inserting into a sorted list keeps it sorted. */
  lemma {:induction false} InsertSorted(x: Node, s: seq<Node>)
    requires SortedByName(s)
    ensures SortedByName(Insert(x, s))
  {
    if s == [] {
    } else if NameLe(x.name, s[0].name) {
      forall j | 0 < j < |s| ensures NameLe(x.name, s[j].name) {
        NameLeTransitive(x.name, s[0].name, s[j].name);
      }
      assert Insert(x, s) == [x] + s;
    } else {
      var rest := Insert(x, s[1..]);
      InsertSorted(x, s[1..]);
      NameLeTotal(x.name, s[0].name);
      forall j | 0 <= j < |rest| ensures NameLe(s[0].name, rest[j].name) {
        HeadBeforeInserted(x, s, j);
      }
      assert Insert(x, s) == [s[0]] + rest;
    }
  }

  /** When `x` goes after the head of a sorted list, the head still comes
      first: every entry of the rest, `x` included, sorts after it. */
  lemma HeadBeforeInserted(x: Node, s: seq<Node>, j: int)
    requires SortedByName(s) && s != [] && NameLe(s[0].name, x.name)
    requires 0 <= j < |Insert(x, s[1..])|
    ensures NameLe(s[0].name, Insert(x, s[1..])[j].name)
  {
    var rest := Insert(x, s[1..]);
    assert rest[j] in multiset(rest);
    if rest[j] != x {
      assert rest[j] in multiset(s[1..]);
      var k :| 0 <= k < |s[1..]| && s[1..][k] == rest[j];
      assert s[k + 1] == rest[j];
    }
  }

  /** `sorted(path.iterdir())`: the entries of a directory in name order. */
  function SortByName(s: seq<Node>): (r: seq<Node>)
    ensures SortedByName(r)
    ensures multiset(r) == multiset(s)
  {
    if s == [] then []
    else
      assert s == [s[0]] + s[1..];
      var rest := SortByName(s[1..]);
      InsertSorted(s[0], rest);
      Insert(s[0], rest)
  }

  /** The tree item for the node `n` found at `p`, with all items beneath it. */
  function ItemFor(n: Node, p: Path): TreeItem
    decreases n, 1
  {
    if n.File? then TreeItem(Base(p), p, [])
    else
      var sorted := SortByName(n.entries);
      SortedEntriesBelong(n);
      TreeItem(Base(p), p, AddItems(n, sorted, p))
  }

  /** `add_items(parent_item, path)` over the sorted entries `s` of `dir`. */
  function AddItems(dir: Node, s: seq<Node>, p: Path): (r: seq<TreeItem>)
    requires dir.Dir? && forall e | e in s :: e in dir.entries
    ensures |r| == |s|
    decreases dir, 0, |s|
  {
    if s == [] then []
    else
      assert s[0] in dir.entries;
      [ItemFor(s[0], p + [s[0].name])] + AddItems(dir, s[1..], p)
  }

  /** The `i`-th item added is the item of the `i`-th entry, one level down. */
  lemma {:induction false} AddItemsAt(dir: Node, s: seq<Node>, p: Path, i: nat)
    requires dir.Dir? && forall e | e in s :: e in dir.entries
    requires i < |s|
    ensures AddItems(dir, s, p)[i] == ItemFor(s[i], p + [s[i].name])
  {
    if i > 0 {
      AddItemsAt(dir, s[1..], p, i - 1);
    }
  }

  /** `populate_tree()` on the tree `fs` with base directory `base`. */
  function PopulateTree(fs: Node, base: Path): (r: Populated)
    ensures r.NotFound? <==> Lookup(fs, base).None?
    ensures r.NotFound? ==> r.message == "Error: Directory '" + Render(base) + "' not found."
    ensures r.BaseIsFile? <==> Lookup(fs, base).Some? && Lookup(fs, base).value.File?
    ensures r.Built? ==> Mirrors(r.root, Lookup(fs, base).value, base)
  {
    match Lookup(fs, base)
    case None => NotFound("Error: Directory '" + Render(base) + "' not found.")
    case Some(n) =>
      if n.File? then BaseIsFile
      else
        BuiltTreeMirrors(n, base);
        Built(ItemFor(n, base))
  }

  /** The item `t` shows the node `n` stored at `p`: it carries `p` and its
      last name; a file's item has no children; a directory's children list
      each entry exactly once, in name order, one level further down. */
  ghost predicate Mirrors(t: TreeItem, n: Node, p: Path)
    decreases n
  {
    && t.path == p
    && t.text == Base(p)
    && (n.File? ==> t.children == [])
    && (n.Dir? ==>
          && ListsInOrder(t.children, n.entries)
          && (forall c | c in t.children ::
                exists e | e in n.entries :: c.text == e.name && Mirrors(c, e, p + [e.name])))
  }

  /** `kids` shows the entries `es`, one item per entry and every entry's
      name among them, sorted by name. */
  ghost predicate ListsInOrder(kids: seq<TreeItem>, es: seq<Node>)
  {
    && |kids| == |es|
    && (forall i, j :: 0 <= i < j < |kids| ==> NameLe(kids[i].text, kids[j].text))
    && (forall e | e in es :: exists i :: 0 <= i < |kids| && kids[i].text == e.name)
  }

  lemma SortedEntriesBelong(n: Node)
    requires n.Dir?
    ensures forall e | e in SortByName(n.entries) :: e in n.entries
  {
    var sorted := SortByName(n.entries);
    forall e | e in sorted ensures e in n.entries {
      assert e in multiset(sorted);
    }
  }

  /** The children of a directory's item list its entries in name order. */
  lemma ChildrenInOrder(n: Node, p: Path)
    requires n.Dir?
    ensures ListsInOrder(ItemFor(n, p).children, n.entries)
  {
    var sorted := SortByName(n.entries);
    SortedEntriesBelong(n);
    assert ItemFor(n, p).children == AddItems(n, sorted, p);
    ChildrenSorted(n, p);
    assert |sorted| == |n.entries| by {
      assert |multiset(sorted)| == |multiset(n.entries)|;
    }
    forall e | e in n.entries
      ensures exists i :: 0 <= i < |ItemFor(n, p).children| && ItemFor(n, p).children[i].text == e.name
    {
      EntryShown(n, p, e);
    }
  }

  /** Every entry of a directory has a child item carrying its name. */
  lemma EntryShown(n: Node, p: Path, e: Node)
    requires n.Dir? && e in n.entries
    ensures exists i :: 0 <= i < |ItemFor(n, p).children| && ItemFor(n, p).children[i].text == e.name
  {
    var sorted := SortByName(n.entries);
    assert e in multiset(sorted);
    var i :| 0 <= i < |sorted| && sorted[i] == e;
    SortedEntriesBelong(n);
    assert ItemFor(n, p).children == AddItems(n, sorted, p);
    ChildLabel(n, p, i);
  }

  /** The children's labels are in name order. */
  lemma ChildrenSorted(n: Node, p: Path)
    requires n.Dir?
    ensures forall i, j :: 0 <= i < j < |ItemFor(n, p).children| ==>
      NameLe(ItemFor(n, p).children[i].text, ItemFor(n, p).children[j].text)
  {
    var kids := ItemFor(n, p).children;
    var sorted := SortByName(n.entries);
    forall i, j | 0 <= i < j < |kids|
      ensures NameLe(kids[i].text, kids[j].text)
    {
      ChildLabel(n, p, i);
      ChildLabel(n, p, j);
    }
  }

  /** The `i`-th child is labelled with the `i`-th name in sorted order. */
  lemma ChildLabel(n: Node, p: Path, i: nat)
    requires n.Dir? && i < |ItemFor(n, p).children|
    ensures i < |SortByName(n.entries)|
    ensures ItemFor(n, p).children[i].text == SortByName(n.entries)[i].name
  {
    var sorted := SortByName(n.entries);
    SortedEntriesBelong(n);
    assert ItemFor(n, p).children == AddItems(n, sorted, p);
    AddItemsAt(n, sorted, p, i);
  }

  /** The built tree mirrors the directory it was built from, at every level. */
  lemma {:induction false} BuiltTreeMirrors(n: Node, p: Path)
    ensures Mirrors(ItemFor(n, p), n, p)
    decreases n, 1
  {
    if n.Dir? {
      var kids := ItemFor(n, p).children;
      ChildrenInOrder(n, p);
      forall c | c in kids
        ensures exists e | e in n.entries :: c.text == e.name && Mirrors(c, e, p + [e.name])
      {
        var i :| 0 <= i < |kids| && kids[i] == c;
        ChildMirrors(n, p, i);
      }
    }
  }

  /** The `i`-th child of a directory's item mirrors the `i`-th entry in name
      order, which is one of the directory's entries. */
  lemma {:induction false} ChildMirrors(n: Node, p: Path, i: nat)
    requires n.Dir? && i < |ItemFor(n, p).children|
    ensures exists e | e in n.entries ::
      ItemFor(n, p).children[i].text == e.name && Mirrors(ItemFor(n, p).children[i], e, p + [e.name])
    decreases n, 0
  {
    var sorted := SortByName(n.entries);
    SortedEntriesBelong(n);
    ChildLabel(n, p, i);
    var e := sorted[i];
    assert e in n.entries;
    assert ItemFor(n, p).children == AddItems(n, sorted, p);
    AddItemsAt(n, sorted, p, i);
    BuiltTreeMirrors(e, p + [e.name]);
  }
}

=== FILE: cis_auditor.dfy ===
/** cis-auditor.py: the terminal menu. Every prompt's answer is taken from a
    list of replies, one per `ask()`, and everything the program shows or
    starts is recorded in an event log. A reply is what `ask()` returns: the
    picked choice, the confirm answer, or `None` when the prompt is
    dismissed. The code's `==` comparisons and truth tests are followed
    literally, so a reply that matches no choice ends in the `StopIteration`
    that `next(...)` raises. */
module CisAuditor {
  import opened Text
  import opened FileSystem
  import opened Execution

  /** What one `ask()` returns. */
  datatype Reply = Picked(choice: string) | Answered(yes: bool) | Dismissed

  /** Python truthiness of a reply, as `if confirm:` tests it. */
  predicate Truthy(r: Reply)
  {
    match r
    case Picked(s) => |s| > 0
    case Answered(b) => b
    case Dismissed => false
  }

  /** Everything observable: the menus with their choices and the reply each
      got, confirm prompts, printed lines and started processes. */
  datatype Event =
    | MainMenu(choices: seq<string>, reply: Reply)
    | SubdirMenu(dir: Path, choices: seq<string>, reply: Reply)
    | ScriptMenu(dir: Path, choices: seq<string>, reply: Reply)
    | Confirm(reply: Reply)
    | Say(line: string)
    | Start(command: Command)

  /** How a piece of the dialogue ends: the enclosing loop goes on, a
      navigation level returns, `sys.exit(code)`, an uncaught exception, or
      the replies ran out while a prompt was waiting. */
  datatype Stop = Continue | Returned | Exited(code: int) | Crashed | Waiting

  datatype Run = Run(stop: Stop, log: seq<Event>, rest: seq<Reply>)

  const Back := "Back"
  const Exit := "Exit"
  const BackToParent := "Back to Parent Directory"
  const Exiting := "Exiting..."
  const Cancelled := "Cancelled. Returning to subdirectory menu."

  function DoesNotExist(dir: Path): string
  {
    "Error: Directory '" + Render(dir) + "' does not exist."
  }

  function NoScriptsIn(dir: Path): string
  {
    "No scripts found in '" + Base(dir) + "'. Returning to parent subdirectory."
  }

  /** What `discover_subdirectories` can do: list the immediate
      subdirectories, find no such path (it prints and exits with 1), or
      meet a regular file, on which `iterdir` raises. */
  datatype Listing = Found(dirs: seq<Path>) | Missing | NotADirectory

  /** The paths of the entries of `es` that satisfy `keep`, as children of
      `dir`, in entry order. */
  function Children(dir: Path, es: seq<Node>, keep: Node -> bool): (r: seq<Path>)
    ensures forall p :: p in r <==> exists k :: 0 <= k < |es| && keep(es[k]) && p == dir + [es[k].name]
  {
    if es == [] then []
    else
      var rest := Children(dir, es[1..], keep);
      assert forall k :: 0 < k < |es| ==> es[k] == es[1..][k - 1];
      if keep(es[0]) then [dir + [es[0].name]] + rest else rest
  }

  /** `discover_subdirectories(base_dir)`. */
  function DiscoverSubdirectories(fs: Node, dir: Path): (r: Listing)
    ensures r.Missing? <==> Lookup(fs, dir).None?
    ensures r.NotADirectory? <==> Lookup(fs, dir).Some? && Lookup(fs, dir).value.File?
  {
    match Lookup(fs, dir)
    case None => Missing
    case Some(File(_)) => NotADirectory
    case Some(Dir(_, es)) => Found(Children(dir, es, (e: Node) => e.Dir?))
  }

  /** The listing holds exactly the immediate subdirectories: paths one
      name below `dir` where the tree has a directory. */
  lemma SubdirectoriesExact(fs: Node, dir: Path, p: Path)
    requires WellFormed(fs) && Lookup(fs, dir).Some? && Lookup(fs, dir).value.Dir?
    ensures p in DiscoverSubdirectories(fs, dir).dirs <==>
      |p| == |dir| + 1 && p[..|dir|] == dir && Lookup(fs, p).Some? && Lookup(fs, p).value.Dir?
  {
    ImmediateExact(fs, dir, p, (e: Node) => e.Dir?);
  }

  /** `discover_scripts_in_subdirectory(subdir)`: the immediate files whose
      suffix is `.sh` or `.py`. The source calls it on directories only. */
  function DiscoverScripts(fs: Node, dir: Path): seq<Path>
    requires Lookup(fs, dir).Some? && Lookup(fs, dir).value.Dir?
  {
    Children(dir, Lookup(fs, dir).value.entries, (e: Node) => e.File? && Supported(e.name))
  }

  /** The scripts of a directory are exactly the supported files one name
      below it; nothing deeper is found. */
  lemma ScriptsExact(fs: Node, dir: Path, p: Path)
    requires WellFormed(fs) && Lookup(fs, dir).Some? && Lookup(fs, dir).value.Dir?
    ensures p in DiscoverScripts(fs, dir) <==>
      |p| == |dir| + 1 && p[..|dir|] == dir && Lookup(fs, p).Some? && Lookup(fs, p).value.File? &&
      Supported(Base(p))
  {
    var keep := (e: Node) => e.File? && Supported(e.name);
    ImmediateExact(fs, dir, p, keep);
    if |p| == |dir| + 1 && p[..|dir|] == dir && Lookup(fs, p).Some? {
      assert Base(p) == Lookup(fs, p).value.name;
    }
  }

  /** A child path of `dir` is in the list exactly when the tree holds an
      entry there that `keep` accepts. */
  lemma ImmediateExact(fs: Node, dir: Path, p: Path, keep: Node -> bool)
    requires WellFormed(fs) && Lookup(fs, dir).Some? && Lookup(fs, dir).value.Dir?
    ensures p in Children(dir, Lookup(fs, dir).value.entries, keep) <==>
      |p| == |dir| + 1 && p[..|dir|] == dir && Lookup(fs, p).Some? && keep(Lookup(fs, p).value)
  {
    if p in Children(dir, Lookup(fs, dir).value.entries, keep) {
      ListedIsChild(fs, dir, p, keep);
    }
    if |p| == |dir| + 1 && p[..|dir|] == dir && Lookup(fs, p).Some? && keep(Lookup(fs, p).value) {
      ChildIsListed(fs, dir, p, keep);
    }
  }

  lemma ListedIsChild(fs: Node, dir: Path, p: Path, keep: Node -> bool)
    requires WellFormed(fs) && Lookup(fs, dir).Some? && Lookup(fs, dir).value.Dir?
    requires p in Children(dir, Lookup(fs, dir).value.entries, keep)
    ensures |p| == |dir| + 1 && p[..|dir|] == dir && Lookup(fs, p).Some? && keep(Lookup(fs, p).value)
  {
    var es := Lookup(fs, dir).value.entries;
    var k :| 0 <= k < |es| && keep(es[k]) && p == dir + [es[k].name];
    ChildLookup(fs, dir, es[k]);
    assert p[..|dir|] == dir;
  }

  lemma ChildIsListed(fs: Node, dir: Path, p: Path, keep: Node -> bool)
    requires Lookup(fs, dir).Some? && Lookup(fs, dir).value.Dir?
    requires |p| == |dir| + 1 && p[..|dir|] == dir && Lookup(fs, p).Some? && keep(Lookup(fs, p).value)
    ensures p in Children(dir, Lookup(fs, dir).value.entries, keep)
  {
    var es := Lookup(fs, dir).value.entries;
    var name := p[|dir|];
    assert p == dir + [name];
    LookupAppend(fs, dir, [name]);
    var e := Find(es, name).value;
    var k :| 0 <= k < |es| && es[k] == e;
  }

  function Names(ps: seq<Path>): (r: seq<string>)
    ensures |r| == |ps|
    ensures forall i :: 0 <= i < |ps| ==> r[i] == Base(ps[i])
  {
    if ps == [] then [] else [Base(ps[0])] + Names(ps[1..])
  }

  /** `next(x for x in xs if x.name == reply)`: the first path whose name
      equals the reply; `None` stands for `StopIteration`. A reply that is
      not a string never equals a name. */
  function FirstNamed(ps: seq<Path>, reply: Reply): (r: Option<Path>)
    ensures r.Some? <==> reply.Picked? && exists i :: 0 <= i < |ps| && Base(ps[i]) == reply.choice
    ensures r.Some? ==> exists i ::
      && 0 <= i < |ps| && ps[i] == r.value && Base(ps[i]) == reply.choice
      && (forall j :: 0 <= j < i ==> Base(ps[j]) != reply.choice)
  {
    if ps == [] || !reply.Picked? then None
    else if Base(ps[0]) == reply.choice then Some(ps[0])
    else
      var r := FirstNamed(ps[1..], reply);
      assert forall i :: 0 < i < |ps| ==> ps[i] == ps[1..][i - 1];
      if r.Some? then
        var i :| 0 <= i < |ps[1..]| && ps[1..][i] == r.value && Base(ps[1..][i]) == reply.choice &&
          (forall j :: 0 <= j < i ==> Base(ps[1..][j]) != reply.choice);
        assert ps[i + 1] == r.value;
        r
      else r
  }

  /** `run_script(script_path)`, with the extension `os.path.splitext`
      gives. */
  function RunScript(p: Path, run: Runner): (log: seq<Event>)
    ensures SplitExt(Base(p)) != ".sh" && SplitExt(Base(p)) != ".py" ==>
      log == [Say("Error: Unsupported script type '" + SplitExt(Base(p)) + "'.")]
  {
    var ext := SplitExt(Base(p));
    match Interpreter(ext)
    case None => [Say("Error: Unsupported script type '" + ext + "'.")]
    case Some(program) =>
      var c := Command(program, p);
      var done := run(c);
      [Say("Running: " + Render(p)), Start(c),
       Say(if done.exitCode == 0 then done.stdout else "Error executing " + Render(p) + ": " + done.stderr)]
  }

  /** A recognised extension prints the running line, starts exactly its
      interpreter, and prints stdout or the error with stderr. */
  lemma RunScriptDispatch(p: Path, run: Runner)
    requires SplitExt(Base(p)) == ".sh" || SplitExt(Base(p)) == ".py"
    ensures var c := Command(if SplitExt(Base(p)) == ".sh" then "bash" else "python3", p);
      RunScript(p, run) == [Say("Running: " + Render(p)), Start(c),
        Say(if run(c).exitCode == 0 then run(c).stdout else "Error executing " + Render(p) + ": " + run(c).stderr)]
  {
  }

  /** The script menu of a leaf directory: its script names, then the way
      back. */
  function ScriptChoices(scripts: seq<Path>): (r: seq<string>)
    ensures |r| == |scripts| + 1 && r[|scripts|] == BackToParent
    ensures forall i :: 0 <= i < |scripts| ==> r[i] == Base(scripts[i])
  {
    Names(scripts) + [BackToParent]
  }

  /** The subdirectory menu: the names, then "Back" and "Exit". */
  function SubdirChoices(subdirs: seq<Path>): (r: seq<string>)
    ensures |r| == |subdirs| + 2 && r[|subdirs|] == Back && r[|subdirs| + 1] == Exit
    ensures forall i :: 0 <= i < |subdirs| ==> r[i] == Base(subdirs[i])
  {
    Names(subdirs) + [Back, Exit]
  }

  /** The main menu: the names, then "Exit". */
  function MainChoices(subdirs: seq<Path>): (r: seq<string>)
    ensures |r| == |subdirs| + 1 && r[|subdirs|] == Exit
    ensures forall i :: 0 <= i < |subdirs| ==> r[i] == Base(subdirs[i])
  {
    Names(subdirs) + [Exit]
  }

  /** `tui_subdirectory_navigation(dir)`: one pass of its loop per reply to
      the subdirectory menu, until it returns, exits, crashes or waits. */
  function Navigate(fs: Node, dir: Path, answers: seq<Reply>, run: Runner): (r: Run)
    ensures |r.rest| <= |answers|
    ensures r.stop != Continue
    decreases |answers|, 0
  {
    match DiscoverSubdirectories(fs, dir)
    case Missing => Run(Exited(1), [Say(DoesNotExist(dir))], answers)
    case NotADirectory => Run(Crashed, [], answers)
    case Found(subdirs) =>
      if answers == [] then Run(Waiting, [], answers)
      else
        var reply := answers[0];
        var shown := SubdirMenu(dir, SubdirChoices(subdirs), reply);
        if reply == Picked(Back) then Run(Returned, [shown], answers[1..])
        else if reply == Picked(Exit) then Run(Exited(0), [shown, Say(Exiting)], answers[1..])
        else match FirstNamed(subdirs, reply)
          case None => Run(Crashed, [shown], answers[1..])
          case Some(sel) =>
            var step := Visit(fs, sel, answers[1..], run);
            if step.stop == Continue then
              var more := Navigate(fs, dir, step.rest, run);
              Run(more.stop, [shown] + step.log + more.log, more.rest)
            else Run(step.stop, [shown] + step.log, step.rest)
  }

  /** The rest of one pass of the navigation loop once `sel` is chosen:
      descend if it has subdirectories, otherwise offer its scripts. */
  function Visit(fs: Node, sel: Path, answers: seq<Reply>, run: Runner): (r: Run)
    ensures |r.rest| <= |answers|
    decreases |answers|, 1
  {
    match DiscoverSubdirectories(fs, sel)
    case Missing => Run(Exited(1), [Say(DoesNotExist(sel))], answers)
    case NotADirectory => Run(Crashed, [], answers)
    case Found(items) =>
      if items != [] then
        var inner := Navigate(fs, sel, answers, run);
        if inner.stop == Returned then Run(Continue, inner.log, inner.rest) else inner
      else
        var scripts := DiscoverScripts(fs, sel);
        if scripts == [] then Run(Continue, [Say(NoScriptsIn(sel))], answers)
        else OfferScripts(sel, scripts, answers, run)
  }

  /** The script menu of a leaf `sel` holding `scripts`, then the confirm
      prompt, then the run or the cancellation notice. */
  function OfferScripts(sel: Path, scripts: seq<Path>, answers: seq<Reply>, run: Runner): (r: Run)
    ensures |r.rest| <= |answers|
  {
    if answers == [] then Run(Waiting, [], answers)
    else
      var reply := answers[0];
      var shown := ScriptMenu(sel, ScriptChoices(scripts), reply);
      if reply == Picked(BackToParent) then Run(Returned, [shown], answers[1..])
      else if |answers| == 1 then Run(Waiting, [shown], answers[1..])
      else
        var confirm := answers[1];
        if Truthy(confirm) then
          match FirstNamed(scripts, reply)
          case None => Run(Crashed, [shown, Confirm(confirm)], answers[2..])
          case Some(script) => Run(Continue, [shown, Confirm(confirm)] + RunScript(script, run), answers[2..])
        else Run(Continue, [shown, Confirm(confirm), Say(Cancelled)], answers[2..])
  }

  /** `tui_main()` with `BASE_DIR` as `base`: the main menu, repeated until
      the program exits, crashes or waits for a reply. */
  function TuiMain(fs: Node, base: Path, answers: seq<Reply>, run: Runner): (r: Run)
    ensures r.stop.Exited? || r.stop.Crashed? || r.stop.Waiting?
    decreases |answers|
  {
    match DiscoverSubdirectories(fs, base)
    case Missing => Run(Exited(1), [Say(DoesNotExist(base))], answers)
    case NotADirectory => Run(Crashed, [], answers)
    case Found(subdirs) =>
      if answers == [] then Run(Waiting, [], answers)
      else
        var reply := answers[0];
        var shown := MainMenu(MainChoices(subdirs), reply);
        if reply == Picked(Exit) then Run(Exited(0), [shown, Say(Exiting)], answers[1..])
        else match FirstNamed(subdirs, reply)
          case None => Run(Crashed, [shown], answers[1..])
          case Some(sel) =>
            var nav := Navigate(fs, sel, answers[1..], run);
            if nav.stop == Returned then
              var more := TuiMain(fs, base, nav.rest, run);
              Run(more.stop, [shown] + nav.log + more.log, more.rest)
            else Run(nav.stop, [shown] + nav.log, nav.rest)
  }

  /** A missing `BASE_DIR` prints its error and exits with 1 before any
      prompt is shown. */
  lemma MissingBaseExits(fs: Node, base: Path, answers: seq<Reply>, run: Runner)
    requires Lookup(fs, base).None?
    ensures TuiMain(fs, base, answers, run) ==
      Run(Exited(1), [Say("Error: Directory '" + Render(base) + "' does not exist.")], answers)
  {
  }

  /** The fixed choices are compared before any subdirectory name: "Back"
      returns and "Exit" exits with 0, even when a subdirectory has that
      name; a dismissed menu matches no subdirectory and crashes. */
  lemma FixedChoicesFirst(fs: Node, dir: Path, answers: seq<Reply>, run: Runner)
    requires DiscoverSubdirectories(fs, dir).Found? && answers != []
    ensures var subdirs := DiscoverSubdirectories(fs, dir).dirs;
      var shown := SubdirMenu(dir, SubdirChoices(subdirs), answers[0]);
      && (answers[0] == Picked(Back) ==> Navigate(fs, dir, answers, run) == Run(Returned, [shown], answers[1..]))
      && (answers[0] == Picked(Exit) ==>
            Navigate(fs, dir, answers, run) == Run(Exited(0), [shown, Say(Exiting)], answers[1..]))
      && (answers[0] == Dismissed ==> Navigate(fs, dir, answers, run) == Run(Crashed, [shown], answers[1..]))
  {
  }

  /** A leaf directory without scripts prints its notice and goes back to
      the enclosing menu without asking anything. */
  lemma EmptyLeafNotice(fs: Node, sel: Path, answers: seq<Reply>, run: Runner)
    requires DiscoverSubdirectories(fs, sel) == Found([])
    requires DiscoverScripts(fs, sel) == []
    ensures Visit(fs, sel, answers, run) == Run(Continue, [Say(NoScriptsIn(sel))], answers)
  {
  }

  // ---------------------------------------------------------------------
  // Invariants of whole dialogues

  /** A menu or a confirm prompt: an event that takes one reply. */
  predicate IsPrompt(e: Event)
  {
    !e.Say? && !e.Start?
  }

  /** The number of prompts shown in a log. */
  function Prompts(log: seq<Event>): nat
  {
    if log == [] then 0
    else (if IsPrompt(log[0]) then 1 else 0) + Prompts(log[1..])
  }

  lemma {:induction false} PromptsAppend(a: seq<Event>, b: seq<Event>)
    ensures Prompts(a + b) == Prompts(a) + Prompts(b)
  {
    if a == [] {
      assert a + b == b;
    } else {
      assert (a + b)[0] == a[0];
      assert (a + b)[1..] == a[1..] + b;
      PromptsAppend(a[1..], b);
    }
  }

  lemma PromptsOfOne(e: Event)
    ensures Prompts([e]) == if IsPrompt(e) then 1 else 0
  {
    assert [e][1..] == [];
  }

  /** Two events in a row: the counts add up. */
  lemma PromptsOfTwo(e: Event, f: Event)
    ensures Prompts([e, f]) == Prompts([e]) + Prompts([f])
  {
    assert [e, f] == [e] + [f];
    PromptsAppend([e], [f]);
  }
  lemma PromptsOfThree(a: seq<Event>, b: seq<Event>, c: seq<Event>)
    ensures Prompts(a + b + c) == Prompts(a) + Prompts(b) + Prompts(c)
  {
    PromptsAppend(a, b);
    PromptsAppend(a + b, c);
  }

  /** Every reply a run consumes answers exactly one prompt of its log: the
      dialogue never skips a reply and never shows a prompt without taking
      one. */
  predicate OneReplyPerPrompt(answers: seq<Reply>, r: Run)
  {
    && |r.rest| <= |answers|
    && r.rest == answers[|answers| - |r.rest|..]
    && Prompts(r.log) == |answers| - |r.rest|
  }

  /** A suffix of a suffix is a suffix. */
  lemma SuffixOfSuffix<T>(a: seq<T>, b: seq<T>, c: seq<T>)
    requires |b| <= |a| && b == a[|a| - |b|..]
    requires |c| <= |b| && c == b[|b| - |c|..]
    ensures c == a[|a| - |c|..]
  {
  }

  /** A run that answers no prompt leaves every reply unread. */
  lemma TakesNone(answers: seq<Reply>, stop: Stop, log: seq<Event>)
    requires Prompts(log) == 0
    ensures OneReplyPerPrompt(answers, Run(stop, log, answers))
  {
  }

  /** A run that shows one prompt reads the first reply. */
  lemma TakesOne(answers: seq<Reply>, stop: Stop, log: seq<Event>)
    requires answers != [] && Prompts(log) == 1
    ensures OneReplyPerPrompt(answers, Run(stop, log, answers[1..]))
  {
  }

  /** A prompt followed by a nested run. */
  lemma TakesOneThen(answers: seq<Reply>, shown: Event, step: Run, stop: Stop)
    requires answers != [] && IsPrompt(shown)
    requires OneReplyPerPrompt(answers[1..], step)
    ensures OneReplyPerPrompt(answers, Run(stop, [shown] + step.log, step.rest))
  {
    PromptsOfOne(shown);
    PromptsAppend([shown], step.log);
    SuffixOfSuffix(answers, answers[1..], step.rest);
  }

  /** Two runs one after the other. */
  lemma ThenRun(answers: seq<Reply>, step: Run, more: Run, stop: Stop)
    requires OneReplyPerPrompt(answers, step)
    requires OneReplyPerPrompt(step.rest, more)
    ensures OneReplyPerPrompt(answers, Run(stop, step.log + more.log, more.rest))
  {
    PromptsAppend(step.log, more.log);
    SuffixOfSuffix(answers, step.rest, more.rest);
  }

  /** A prompt, a nested run, and the loop's next pass. */
  lemma TakesOneThenTwo(answers: seq<Reply>, shown: Event, step: Run, more: Run, stop: Stop)
    requires answers != [] && IsPrompt(shown)
    requires OneReplyPerPrompt(answers[1..], step)
    requires OneReplyPerPrompt(step.rest, more)
    ensures OneReplyPerPrompt(answers, Run(stop, [shown] + step.log + more.log, more.rest))
  {
    var both := Run(stop, step.log + more.log, more.rest);
    ThenRun(answers[1..], step, more, stop);
    TakesOneThen(answers, shown, both, stop);
    AppendAssoc([shown], step.log, more.log);
  }

  lemma {:induction false} NavigateConsumes(fs: Node, dir: Path, answers: seq<Reply>, run: Runner)
    ensures OneReplyPerPrompt(answers, Navigate(fs, dir, answers, run))
    decreases |answers|, 0
  {
    match DiscoverSubdirectories(fs, dir)
    case Missing =>
      PromptsOfOne(Say(DoesNotExist(dir)));
      TakesNone(answers, Exited(1), [Say(DoesNotExist(dir))]);
    case NotADirectory =>
      TakesNone(answers, Crashed, []);
    case Found(subdirs) =>
      if answers == [] {
        TakesNone(answers, Waiting, []);
      } else {
        var reply := answers[0];
        var shown := SubdirMenu(dir, SubdirChoices(subdirs), reply);
        PromptsOfOne(shown);
        if reply == Picked(Back) {
          TakesOne(answers, Returned, [shown]);
        } else if reply == Picked(Exit) {
          PromptsOfTwo(shown, Say(Exiting));
          PromptsOfOne(Say(Exiting));
          TakesOne(answers, Exited(0), [shown, Say(Exiting)]);
        } else {
          match FirstNamed(subdirs, reply)
          case None =>
            TakesOne(answers, Crashed, [shown]);
          case Some(sel) =>
            var step := Visit(fs, sel, answers[1..], run);
            VisitConsumes(fs, sel, answers[1..], run);
            if step.stop == Continue {
              var more := Navigate(fs, dir, step.rest, run);
              NavigateConsumes(fs, dir, step.rest, run);
              TakesOneThenTwo(answers, shown, step, more, more.stop);
            } else {
              TakesOneThen(answers, shown, step, step.stop);
            }
        }
      }
  }

  lemma {:induction false} VisitConsumes(fs: Node, sel: Path, answers: seq<Reply>, run: Runner)
    ensures OneReplyPerPrompt(answers, Visit(fs, sel, answers, run))
    decreases |answers|, 1
  {
    match DiscoverSubdirectories(fs, sel)
    case Missing =>
    case NotADirectory =>
    case Found(items) =>
      if items != [] {
        NavigateConsumes(fs, sel, answers, run);
      } else {
        var scripts := DiscoverScripts(fs, sel);
        if scripts == [] {
          PromptsOfOne(Say(NoScriptsIn(sel)));
        } else {
          OfferScriptsConsumes(sel, scripts, answers, run);
        }
      }
  }

  lemma OfferScriptsConsumes(sel: Path, scripts: seq<Path>, answers: seq<Reply>, run: Runner)
    ensures OneReplyPerPrompt(answers, OfferScripts(sel, scripts, answers, run))
  {
    if answers != [] {
      var reply := answers[0];
      var shown := ScriptMenu(sel, ScriptChoices(scripts), reply);
      PromptsOfOne(shown);
      if reply != Picked(BackToParent) && |answers| >= 2 {
        var confirm := answers[1];
        var head := [shown, Confirm(confirm)];
        PromptsOfTwo(shown, Confirm(confirm));
        PromptsOfOne(Confirm(confirm));
        if Truthy(confirm) {
          match FirstNamed(scripts, reply)
          case None =>
          case Some(script) =>
            PromptsAppend(head, RunScript(script, run));
            RunScriptPrompts(script, run);
        } else {
          PromptsAppend(head, [Say(Cancelled)]);
          PromptsOfOne(Say(Cancelled));
          assert head + [Say(Cancelled)] == [shown, Confirm(confirm), Say(Cancelled)];
        }
      }
    }
  }

  /** Running a script asks nothing. */
  lemma RunScriptPrompts(p: Path, run: Runner)
    ensures Prompts(RunScript(p, run)) == 0
  {
    var log := RunScript(p, run);
    if |log| == 3 {
      assert log == [log[0]] + [log[1]] + [log[2]];
      PromptsOfThree([log[0]], [log[1]], [log[2]]);
      PromptsOfOne(log[0]);
      PromptsOfOne(log[1]);
      PromptsOfOne(log[2]);
    } else {
      PromptsOfOne(log[0]);
    }
  }

  lemma {:induction false} TuiMainConsumes(fs: Node, base: Path, answers: seq<Reply>, run: Runner)
    ensures OneReplyPerPrompt(answers, TuiMain(fs, base, answers, run))
    decreases |answers|
  {
    match DiscoverSubdirectories(fs, base)
    case Missing =>
      PromptsOfOne(Say(DoesNotExist(base)));
      TakesNone(answers, Exited(1), [Say(DoesNotExist(base))]);
    case NotADirectory =>
      TakesNone(answers, Crashed, []);
    case Found(subdirs) =>
      if answers == [] {
        TakesNone(answers, Waiting, []);
      } else {
        var reply := answers[0];
        var shown := MainMenu(MainChoices(subdirs), reply);
        PromptsOfOne(shown);
        if reply == Picked(Exit) {
          PromptsOfTwo(shown, Say(Exiting));
          PromptsOfOne(Say(Exiting));
          TakesOne(answers, Exited(0), [shown, Say(Exiting)]);
        } else {
          match FirstNamed(subdirs, reply)
          case None =>
            TakesOne(answers, Crashed, [shown]);
          case Some(sel) =>
            var nav := Navigate(fs, sel, answers[1..], run);
            NavigateConsumes(fs, sel, answers[1..], run);
            if nav.stop == Returned {
              var more := TuiMain(fs, base, nav.rest, run);
              TuiMainConsumes(fs, base, nav.rest, run);
              TakesOneThenTwo(answers, shown, nav, more, more.stop);
            } else {
              TakesOneThen(answers, shown, nav, nav.stop);
            }
        }
      }
  }

  /** Every started process was confirmed: it comes right after the script
      menu of its own directory whose reply named it, a truthy confirm
      answer, and the "Running:" line for its path. */
  predicate StartsConfirmed(log: seq<Event>)
  {
    forall i {:trigger log[i]} | 0 <= i < |log| && log[i].Start? ::
      && 3 <= i
      && log[i - 3].ScriptMenu? && log[i - 3].reply == Picked(Base(log[i].command.script))
      && log[i].command.script == log[i - 3].dir + [Base(log[i].command.script)]
      && log[i - 2].Confirm? && Truthy(log[i - 2].reply)
      && log[i - 1] == Say("Running: " + Render(log[i].command.script))
  }

  /** Every confirm prompt follows a script menu, and a falsy answer is
      followed by the cancellation notice. */
  predicate ConfirmsAnswered(log: seq<Event>)
  {
    forall i {:trigger log[i]} | 0 <= i < |log| && log[i].Confirm? ::
      && 1 <= i && log[i - 1].ScriptMenu?
      && (!Truthy(log[i].reply) ==> i + 1 < |log| && log[i + 1] == Say(Cancelled))
  }

  /** `sys.exit` is only reached right after its message: "Exiting..." for
      code 0, the missing-directory error for code 1. */
  ghost predicate ExitAnnounced(r: Run)
  {
    r.stop.Exited? ==>
      && r.log != []
      && ((r.stop.code == 0 && r.log[|r.log| - 1] == Say(Exiting)) ||
          (r.stop.code == 1 && exists d :: r.log[|r.log| - 1] == Say(DoesNotExist(d))))
  }

  ghost predicate Behaved(r: Run)
  {
    StartsConfirmed(r.log) && ConfirmsAnswered(r.log) && ExitAnnounced(r)
  }

  lemma StartsConfirmedAppend(a: seq<Event>, b: seq<Event>)
    requires StartsConfirmed(a) && StartsConfirmed(b)
    ensures StartsConfirmed(a + b)
  {
    forall i | 0 <= i < |a + b| && (a + b)[i].Start?
      ensures 3 <= i && (a + b)[i - 3].ScriptMenu?
    {
      if i >= |a| {
        assert b[i - |a|].Start?;
      }
    }
  }

  lemma ConfirmAt(log: seq<Event>, i: int)
    requires ConfirmsAnswered(log) && 0 <= i < |log| && log[i].Confirm?
    ensures 1 <= i && log[i - 1].ScriptMenu?
    ensures !Truthy(log[i].reply) ==> i + 1 < |log| && log[i + 1] == Say(Cancelled)
  {
  }

  lemma ConfirmsAnsweredAppend(a: seq<Event>, b: seq<Event>)
    requires ConfirmsAnswered(a) && ConfirmsAnswered(b)
    ensures ConfirmsAnswered(a + b)
  {
    var ab := a + b;
    forall i | 0 <= i < |ab| && ab[i].Confirm?
      ensures 1 <= i && ab[i - 1].ScriptMenu?
      ensures !Truthy(ab[i].reply) ==> i + 1 < |ab| && ab[i + 1] == Say(Cancelled)
    {
      if i >= |a| {
        var j := i - |a|;
        ConfirmAt(b, j);
        if !Truthy(b[j].reply) {
          assert ab[i + 1] == b[j + 1];
        }
      } else {
        ConfirmAt(a, i);
        if !Truthy(a[i].reply) {
          assert ab[i + 1] == a[i + 1];
        }
      }
    }
  }

  /** A run after another keeps both disciplines, and its exit is the
      second run's. */
  lemma BehavedAppend(stop: Stop, a: seq<Event>, second: Run, rest: seq<Reply>)
    requires StartsConfirmed(a) && ConfirmsAnswered(a) && Behaved(second)
    ensures Behaved(Run(second.stop, a + second.log, rest))
  {
    StartsConfirmedAppend(a, second.log);
    ConfirmsAnsweredAppend(a, second.log);
    if second.stop.Exited? {
      assert (a + second.log)[|a + second.log| - 1] == second.log[|second.log| - 1];
    }
  }

  /** A menu shown before a nested run. */
  lemma MenuThen(shown: Event, step: Run, rest: seq<Reply>)
    requires !shown.Start? && !shown.Confirm?
    requires Behaved(step)
    ensures Behaved(Run(step.stop, [shown] + step.log, rest))
  {
    BehavedAppend(step.stop, [shown], step, rest);
  }

  /** A menu, a nested run, and the loop's next pass. */
  lemma MenuThenTwo(shown: Event, step: Run, more: Run)
    requires !shown.Start? && !shown.Confirm?
    requires Behaved(step) && Behaved(more)
    ensures Behaved(Run(more.stop, [shown] + step.log + more.log, more.rest))
  {
    StartsConfirmedAppend([shown], step.log);
    ConfirmsAnsweredAppend([shown], step.log);
    BehavedAppend(more.stop, [shown] + step.log, more, more.rest);
  }

  /** What running a script prints and starts: the error line alone, or
      the running line, the one process for that script, and its output. */
  lemma RunScriptShape(p: Path, run: Runner)
    ensures var log := RunScript(p, run);
      || (|log| == 1 && log[0].Say?)
      || (&& |log| == 3 && log[0] == Say("Running: " + Render(p))
          && log[1].Start? && log[1].command.script == p && log[2].Say?)
  {
  }

  /** The script run after a truthy confirm for the script of the menu's
      directory that the menu named: the only process it starts is that
      script's. */
  lemma ConfirmedRun(shown: Event, confirm: Reply, script: Path, run: Runner)
    requires shown.ScriptMenu? && shown.reply == Picked(Base(script)) && Truthy(confirm)
    requires script == shown.dir + [Base(script)]
    ensures forall e | e in RunScript(script, run) && e.Start? :: e.command.script == script
    ensures Behaved(Run(Continue, [shown, Confirm(confirm)] + RunScript(script, run), []))
  {
    var tail := RunScript(script, run);
    RunScriptShape(script, run);
    var log := [shown, Confirm(confirm)] + tail;
    ConfirmedStarts(shown, confirm, script, tail);
    assert forall i | 2 <= i < |log| :: log[i] == tail[i - 2];
  }

  lemma ConfirmedStarts(shown: Event, confirm: Reply, script: Path, tail: seq<Event>)
    requires shown.ScriptMenu? && shown.reply == Picked(Base(script)) && Truthy(confirm)
    requires script == shown.dir + [Base(script)]
    requires || (|tail| == 1 && tail[0].Say?)
             || (&& |tail| == 3 && tail[0] == Say("Running: " + Render(script))
                 && tail[1].Start? && tail[1].command.script == script && tail[2].Say?)
    ensures StartsConfirmed([shown, Confirm(confirm)] + tail)
  {
    var log := [shown, Confirm(confirm)] + tail;
    forall i | 0 <= i < |log| && log[i].Start?
      ensures i == 3
    {
      if i >= 2 {
        assert log[i] == tail[i - 2];
      }
    }
  }

  /** The script menu of a directory lists only its own children. */
  lemma ScriptsBelow(fs: Node, dir: Path)
    requires Lookup(fs, dir).Some? && Lookup(fs, dir).value.Dir?
    ensures forall s | s in DiscoverScripts(fs, dir) :: s == dir + [Base(s)]
  {
    forall s | s in DiscoverScripts(fs, dir)
      ensures s == dir + [Base(s)]
    {
      var es := Lookup(fs, dir).value.entries;
      var k :| 0 <= k < |es| && s == dir + [es[k].name];
      assert Base(s) == es[k].name;
    }
  }

  /** In one script menu over the children of `sel`, a process starts only
      after a truthy confirm for the child the menu named. */
  lemma OfferScriptsBehaved(sel: Path, scripts: seq<Path>, answers: seq<Reply>, run: Runner)
    requires forall s | s in scripts :: s == sel + [Base(s)]
    ensures Behaved(OfferScripts(sel, scripts, answers, run))
  {
    if answers != [] && answers[0] != Picked(BackToParent) && |answers| >= 2 && Truthy(answers[1]) {
      var reply := answers[0];
      match FirstNamed(scripts, reply)
      case None =>
      case Some(script) =>
        assert reply == Picked(Base(script));
        assert script in scripts;
        ConfirmedRun(ScriptMenu(sel, ScriptChoices(scripts), reply), answers[1], script, run);
    }
  }

  /** Confirmation before every launch, the cancellation notice after every
      refusal, and a message before every exit, for any replies. */
  lemma {:induction false} NavigateBehaved(fs: Node, dir: Path, answers: seq<Reply>, run: Runner)
    ensures Behaved(Navigate(fs, dir, answers, run))
    decreases |answers|, 0
  {
    match DiscoverSubdirectories(fs, dir)
    case Missing =>
    case NotADirectory =>
    case Found(subdirs) =>
      if answers != [] {
        var reply := answers[0];
        var shown := SubdirMenu(dir, SubdirChoices(subdirs), reply);
        if reply != Picked(Back) && reply != Picked(Exit) {
          match FirstNamed(subdirs, reply)
          case None =>
          case Some(sel) =>
            var step := Visit(fs, sel, answers[1..], run);
            VisitBehaved(fs, sel, answers[1..], run);
            if step.stop == Continue {
              var more := Navigate(fs, dir, step.rest, run);
              NavigateBehaved(fs, dir, step.rest, run);
              MenuThenTwo(shown, step, more);
            } else {
              MenuThen(shown, step, step.rest);
            }
        }
      }
  }

  lemma {:induction false} VisitBehaved(fs: Node, sel: Path, answers: seq<Reply>, run: Runner)
    ensures Behaved(Visit(fs, sel, answers, run))
    decreases |answers|, 1
  {
    match DiscoverSubdirectories(fs, sel)
    case Missing =>
    case NotADirectory =>
    case Found(items) =>
      if items != [] {
        NavigateBehaved(fs, sel, answers, run);
      } else if DiscoverScripts(fs, sel) != [] {
        ScriptsBelow(fs, sel);
        OfferScriptsBehaved(sel, DiscoverScripts(fs, sel), answers, run);
      }
  }

  lemma {:induction false} TuiMainBehaved(fs: Node, base: Path, answers: seq<Reply>, run: Runner)
    ensures Behaved(TuiMain(fs, base, answers, run))
    decreases |answers|
  {
    match DiscoverSubdirectories(fs, base)
    case Missing =>
    case NotADirectory =>
    case Found(subdirs) =>
      if answers != [] && answers[0] != Picked(Exit) {
        var reply := answers[0];
        var shown := MainMenu(MainChoices(subdirs), reply);
        match FirstNamed(subdirs, reply)
        case None =>
        case Some(sel) =>
          var nav := Navigate(fs, sel, answers[1..], run);
          NavigateBehaved(fs, sel, answers[1..], run);
          if nav.stop == Returned {
            var more := TuiMain(fs, base, nav.rest, run);
            TuiMainBehaved(fs, base, nav.rest, run);
            MenuThenTwo(shown, nav, more);
          } else {
            MenuThen(shown, nav, nav.rest);
          }
      }
  }

  // ---------------------------------------------------------------------
  // Where script menus appear

  /** A script menu is only ever shown for a leaf: a directory without
      subdirectories that holds at least one script. */
  ghost predicate LeafMenus(fs: Node, log: seq<Event>)
  {
    forall e | e in log && e.ScriptMenu? ::
      DiscoverSubdirectories(fs, e.dir) == Found([]) && DiscoverScripts(fs, e.dir) != []
  }

  /** Running a script shows no menu. */
  lemma RunScriptNoMenu(p: Path, run: Runner)
    ensures forall e | e in RunScript(p, run) :: !e.ScriptMenu?
  {
    RunScriptShape(p, run);
  }

  /** A script menu of `sel` followed by events that are no script menu. */
  lemma MenuOfFirst(sel: Path, shown: Event, rest: seq<Event>)
    requires shown.ScriptMenu? && shown.dir == sel
    requires forall e | e in rest :: !e.ScriptMenu?
    ensures forall e | e in [shown] + rest && e.ScriptMenu? :: e.dir == sel
  {
  }

  /** One script menu round shows the menu of `sel` and no other script
      menu. */
  lemma OfferScriptsMenus(sel: Path, scripts: seq<Path>, answers: seq<Reply>, run: Runner)
    ensures forall e | e in OfferScripts(sel, scripts, answers, run).log && e.ScriptMenu? :: e.dir == sel
  {
    var log := OfferScripts(sel, scripts, answers, run).log;
    if answers != [] {
      var shown := ScriptMenu(sel, ScriptChoices(scripts), answers[0]);
      var rest: seq<Event> := log[1..];
      if answers[0] != Picked(BackToParent) && |answers| >= 2 {
        if Truthy(answers[1]) && FirstNamed(scripts, answers[0]).Some? {
          var tail := RunScript(FirstNamed(scripts, answers[0]).value, run);
          RunScriptNoMenu(FirstNamed(scripts, answers[0]).value, run);
          assert log == [shown] + ([Confirm(answers[1])] + tail);
          rest := [Confirm(answers[1])] + tail;
        }
      }
      assert log == [shown] + rest;
      MenuOfFirst(sel, shown, rest);
    }
  }

  /** The script menu round of a leaf keeps every script menu on leaves. */
  lemma OfferScriptsLeafMenus(fs: Node, sel: Path, answers: seq<Reply>, run: Runner)
    requires DiscoverSubdirectories(fs, sel) == Found([])
    requires DiscoverScripts(fs, sel) != []
    ensures LeafMenus(fs, OfferScripts(sel, DiscoverScripts(fs, sel), answers, run).log)
  {
    OfferScriptsMenus(sel, DiscoverScripts(fs, sel), answers, run);
  }

  /** Navigation at any depth shows script menus for leaves only: a chosen
      directory with subdirectories is always navigated into. */
  lemma {:induction false} NavigateLeafMenus(fs: Node, dir: Path, answers: seq<Reply>, run: Runner)
    ensures LeafMenus(fs, Navigate(fs, dir, answers, run).log)
    decreases |answers|, 0
  {
    match DiscoverSubdirectories(fs, dir)
    case Missing =>
    case NotADirectory =>
    case Found(subdirs) =>
      if answers != [] && answers[0] != Picked(Back) && answers[0] != Picked(Exit) {
        match FirstNamed(subdirs, answers[0])
        case None =>
        case Some(sel) =>
          var step := Visit(fs, sel, answers[1..], run);
          VisitLeafMenus(fs, sel, answers[1..], run);
          if step.stop == Continue {
            NavigateLeafMenus(fs, dir, step.rest, run);
          }
      }
  }

  lemma {:induction false} VisitLeafMenus(fs: Node, sel: Path, answers: seq<Reply>, run: Runner)
    ensures LeafMenus(fs, Visit(fs, sel, answers, run).log)
    decreases |answers|, 1
  {
    match DiscoverSubdirectories(fs, sel)
    case Missing =>
    case NotADirectory =>
    case Found(items) =>
      if items != [] {
        NavigateLeafMenus(fs, sel, answers, run);
      } else if DiscoverScripts(fs, sel) != [] {
        OfferScriptsLeafMenus(fs, sel, answers, run);
      }
  }

  /** In every dialogue, each script menu belongs to a leaf directory that
      holds scripts; no directory with subdirectories is ever offered as a
      script menu. */
  lemma {:induction false} TuiMainLeafMenus(fs: Node, base: Path, answers: seq<Reply>, run: Runner)
    ensures LeafMenus(fs, TuiMain(fs, base, answers, run).log)
    decreases |answers|
  {
    match DiscoverSubdirectories(fs, base)
    case Missing =>
    case NotADirectory =>
    case Found(subdirs) =>
      if answers != [] && answers[0] != Picked(Exit) {
        match FirstNamed(subdirs, answers[0])
        case None =>
        case Some(sel) =>
          var nav := Navigate(fs, sel, answers[1..], run);
          NavigateLeafMenus(fs, sel, answers[1..], run);
          if nav.stop == Returned {
            TuiMainLeafMenus(fs, base, nav.rest, run);
          }
      }
  }
}

=== FILE: execution.dfy ===
/** Running one script: the command line each variant builds, the process
    outcome it gets back, and the textual verdict. The subprocess itself is
    an oracle, `Runner`, from the command to what `subprocess.run` captured. */
module Execution {
  import opened Text
  import opened FileSystem

  /** `[program, str(script)]`. */
  datatype Command = Command(program: string, script: Path)

  /** What `subprocess.run(..., capture_output=True, text=True)` captured. With
      `check=True` a non-zero `exitCode` raises `CalledProcessError`, which
      carries the same `stdout` and `stderr`. */
  datatype Completed = Completed(exitCode: int, stdout: string, stderr: string)

  type Runner = Command -> Completed

  /** The dispatch table of main.py, app.py and the auditor: `.sh` runs under
      bash, `.py` under python3, and no other suffix has an interpreter. */
  function Interpreter(ext: string): (r: Option<string>)
    ensures r.Some? <==> ext == ".sh" || ext == ".py"
    ensures r == Some("bash") <==> ext == ".sh"
    ensures r == Some("python3") <==> ext == ".py"
  {
    if ext == ".sh" then Some("bash")
    else if ext == ".py" then Some("python3")
    else None
  }

  /** The command for a script whose name passes the suffix gate. */
  function CommandFor(p: Path): (c: Command)
    requires Supported(Base(p))
    ensures c.script == p
    ensures c.program == "bash" <==> Suffix(Base(p)) == ".sh"
    ensures c.program == "python3" <==> Suffix(Base(p)) == ".py"
  {
    Command(Interpreter(Suffix(Base(p))).value, p)
  }

  /** The banner main2.py and main.py write for a non-zero exit:
      `f"Error executing {name}:\n{e.stderr}\n{e.stdout}"`. */
  function ErrorBanner(name: Name, done: Completed): string
  {
    "Error executing " + name + ":\n" + done.stderr + "\n" + done.stdout
  }

  /** The process one script starts under the suffix gate: one for a
      supported suffix, none otherwise. */
  function LaunchOf(p: Path): seq<Command>
  {
    if Supported(Base(p)) then [CommandFor(p)] else []
  }

  /** The processes a list of scripts starts, in list order. */
  function Launches(ps: seq<Path>): seq<Command>
  {
    if ps == [] then [] else LaunchOf(ps[0]) + Launches(ps[1..])
  }

  /** When every script passes the gate, each one starts exactly one
      process, in list order. */
  lemma {:induction false} AllSupportedAllLaunch(ps: seq<Path>)
    requires forall i :: 0 <= i < |ps| ==> Supported(Base(ps[i]))
    ensures |Launches(ps)| == |ps|
    ensures forall i :: 0 <= i < |ps| ==> Launches(ps)[i] == CommandFor(ps[i])
  {
    if ps != [] {
      var rest := ps[1..];
      assert forall i :: 0 <= i < |rest| ==> Supported(Base(rest[i])) by {
        forall i | 0 <= i < |rest|
          ensures Supported(Base(rest[i]))
        {
          assert rest[i] == ps[i + 1];
        }
      }
      AllSupportedAllLaunch(rest);
      var ls := Launches(ps);
      assert ls == [CommandFor(ps[0])] + Launches(rest) by {
        assert LaunchOf(ps[0]) == [CommandFor(ps[0])];
      }
      forall i | 0 < i < |ps|
        ensures ls[i] == CommandFor(ps[i])
      {
        assert ls[i] == Launches(rest)[i - 1] && rest[i - 1] == ps[i];
      }
    }
  }

  /** The verdict: a run failed exactly when the literal `FAIL` occurs in the
      classified text. */
  predicate Failed(text: string)
  {
    Contains(text, "FAIL")
  }

  /** `f"{name}: {'PASS' if 'FAIL' not in text else 'FAIL'}"`. */
  function StatusLine(name: Name, failed: bool): string
  {
    name + ": " + (if failed then "FAIL" else "PASS")
  }

  /** The status line names the script and ends in the verdict, and the two
      verdicts never produce the same line. */
  lemma StatusLineShowsVerdict(name: Name, failed: bool)
    ensures StatusLine(name, failed)[..|name| + 2] == name + ": "
    ensures StatusLine(name, failed) == StatusLine(name, true) <==> failed
  {
    if !failed {
      assert StatusLine(name, false)[|name| + 2] == 'P';
      assert StatusLine(name, true)[|name| + 2] == 'F';
    }
  }
}

=== FILE: filesystem.dfy ===
/** The filesystem every variant reads, as an immutable tree. A path is the
    sequence of component names from the working directory; `exists`,
    `is_dir`, `is_file`, `iterdir` and `rglob('*')` become `Lookup` and `Walk`
    over the tree. The order of a directory's `entries` stands for the order
    the operating system lists them in, which nothing promises. */
module FileSystem {
  import opened Text

  type Name = string
  type Path = seq<Name>

  datatype Node = File(name: Name) | Dir(name: Name, entries: seq<Node>)

  /** `path.name`: the last component; the empty path `.` has the empty name. */
  function Base(p: Path): Name
  {
    if |p| == 0 then "" else p[|p| - 1]
  }

  /** `str(path)`: components joined with `/`, and `.` for the empty path. */
  function Render(p: Path): string
  {
    if |p| == 0 then "." else Join(p)
  }

  function Join(p: Path): string
    requires |p| > 0
  {
    if |p| == 1 then p[0] else p[0] + "/" + Join(p[1..])
  }

  /** A directory never holds two entries with the same name, at any depth. */
  ghost predicate WellFormed(n: Node)
  {
    match n
    case File(_) => true
    case Dir(_, es) =>
      && (forall i, j :: 0 <= i < j < |es| ==> es[i].name != es[j].name)
      && (forall e | e in es :: WellFormed(e))
  }

  /** The first entry called `name`. */
  function Find(es: seq<Node>, name: Name): (r: Option<Node>)
    ensures r.Some? ==> r.value in es && r.value.name == name
    ensures r.None? <==> forall e | e in es :: e.name != name
  {
    if es == [] then None
    else if es[0].name == name then Some(es[0])
    else Find(es[1..], name)
  }

  /** In a directory without repeated names, looking up an entry's name finds
      that entry. */
  lemma {:induction false} FindUnique(es: seq<Node>, e: Node)
    requires forall i, j :: 0 <= i < j < |es| ==> es[i].name != es[j].name
    requires e in es
    ensures Find(es, e.name) == Some(e)
  {
    if es[0] != e {
      assert es[0].name != e.name by {
        var j :| 0 <= j < |es| && es[j] == e;
        assert j > 0;
      }
      assert e in es[1..];
      FindUnique(es[1..], e);
    }
  }

  /** The node reached from `n` by following the components of `rel`: `None`
      when a component is missing or a file is passed through. */
  function Lookup(n: Node, rel: Path): (r: Option<Node>)
    ensures |rel| > 0 && r.Some? ==> r.value.name == rel[|rel| - 1]
    ensures |rel| > 0 && n.File? ==> r.None?
    decreases |rel|
  {
    if rel == [] then Some(n)
    else match n
      case File(_) => None
      case Dir(_, es) =>
        match Find(es, rel[0])
        case None => None
        case Some(c) => Lookup(c, rel[1..])
  }

  /** Looking up `p + q` is looking up `q` from wherever `p` leads. */
  lemma {:induction false} LookupAppend(n: Node, p: Path, q: Path)
    ensures Lookup(n, p + q) == (match Lookup(n, p) case None => None case Some(m) => Lookup(m, q))
    decreases |p|
  {
    if p != [] {
      assert (p + q)[0] == p[0];
      assert (p + q)[1..] == p[1..] + q;
      match n
      case File(_) =>
      case Dir(_, es) =>
        match Find(es, p[0])
        case None =>
        case Some(c) => LookupAppend(c, p[1..], q);
    } else {
      assert p + q == q;
    }
  }

  /** Every node reachable in a well-formed tree is itself well-formed. */
  lemma {:induction false} LookupWellFormed(n: Node, p: Path)
    requires WellFormed(n)
    requires Lookup(n, p).Some?
    ensures WellFormed(Lookup(n, p).value)
    decreases |p|
  {
    if p != [] {
      var c := Find(n.entries, p[0]).value;
      LookupWellFormed(c, p[1..]);
    }
  }

  /** The node one step below a directory is its entry of that name. */
  lemma ChildLookup(fs: Node, base: Path, e: Node)
    requires WellFormed(fs)
    requires Lookup(fs, base).Some? && Lookup(fs, base).value.Dir?
    requires e in Lookup(fs, base).value.entries
    ensures Lookup(fs, base + [e.name]) == Some(e)
  {
    var d := Lookup(fs, base).value;
    LookupAppend(fs, base, [e.name]);
    LookupWellFormed(fs, base);
    FindUnique(d.entries, e);
  }

  /** `rglob('*')` from `n`: every entry strictly beneath `n`, at any depth,
      with its path relative to `n`. A file has nothing beneath it. */
  function Walk(n: Node): seq<(Path, Node)>
    decreases n, 1
  {
    match n
    case File(_) => []
    case Dir(_, _) => WalkFrom(n, 0)
  }

  /** The walk of the entries of `dir` from index `i` on. */
  function WalkFrom(dir: Node, i: nat): seq<(Path, Node)>
    requires dir.Dir? && i <= |dir.entries|
    decreases dir, 0, |dir.entries| - i
  {
    if i == |dir.entries| then []
    else
      var e := dir.entries[i];
      [([e.name], e)] + Under([e.name], Walk(e)) + WalkFrom(dir, i + 1)
  }

  /** Puts `prefix` in front of every path of a walk. */
  function Under(prefix: Path, ws: seq<(Path, Node)>): (r: seq<(Path, Node)>)
    ensures |r| == |ws|
    ensures forall k :: 0 <= k < |ws| ==> r[k] == (prefix + ws[k].0, ws[k].1)
  {
    seq(|ws|, k requires 0 <= k < |ws| => (prefix + ws[k].0, ws[k].1))
  }

  lemma {:induction false} WalkFromGrows(dir: Node, i: nat, j: nat, x: (Path, Node))
    requires dir.Dir? && i <= j <= |dir.entries|
    requires x in WalkFrom(dir, j)
    ensures x in WalkFrom(dir, i)
    decreases j - i
  {
    if i < j {
      WalkFromGrows(dir, i + 1, j, x);
    }
  }

  /** Everything the walk yields is found again by `Lookup`, one step or more
      below `n`. */
  lemma {:induction false} WalkSound(n: Node)
    requires WellFormed(n)
    ensures forall k :: 0 <= k < |Walk(n)| ==> |Walk(n)[k].0| > 0 && Lookup(n, Walk(n)[k].0) == Some(Walk(n)[k].1)
    decreases n, 1
  {
    if n.Dir? {
      WalkFromSound(n, 0);
    }
  }

  lemma {:induction false} WalkFromSound(dir: Node, i: nat)
    requires dir.Dir? && i <= |dir.entries| && WellFormed(dir)
    ensures forall k :: 0 <= k < |WalkFrom(dir, i)| ==>
      |WalkFrom(dir, i)[k].0| > 0 && Lookup(dir, WalkFrom(dir, i)[k].0) == Some(WalkFrom(dir, i)[k].1)
    decreases dir, 0, |dir.entries| - i
  {
    if i < |dir.entries| {
      var e := dir.entries[i];
      assert e in dir.entries;
      FindUnique(dir.entries, e);
      WalkSound(e);
      WalkFromSound(dir, i + 1);
      var head := [([e.name], e)];
      var mid := Under([e.name], Walk(e));
      var tail := WalkFrom(dir, i + 1);
      assert WalkFrom(dir, i) == head + mid + tail;
      forall k | 0 <= k < |mid|
        ensures |mid[k].0| > 0 && Lookup(dir, mid[k].0) == Some(mid[k].1)
      {
        var q := Walk(e)[k].0;
        assert mid[k].0 == [e.name] + q;
        assert ([e.name] + q)[1..] == q;
      }
    }
  }

  /** Everything one step or more below `n` is yielded by the walk. */
  lemma {:induction false} WalkComplete(n: Node, q: Path)
    requires |q| > 0 && Lookup(n, q).Some?
    ensures (q, Lookup(n, q).value) in Walk(n)
    decreases n
  {
    var es := n.entries;
    var c := Find(es, q[0]).value;
    var i :| 0 <= i < |es| && es[i] == c;
    var m := Lookup(n, q).value;
    var piece := WalkFrom(n, i);
    assert piece == [([c.name], c)] + Under([c.name], Walk(c)) + WalkFrom(n, i + 1);
    if |q| == 1 {
      assert q == [c.name];
      assert (q, m) == piece[0];
    } else {
      WalkComplete(c, q[1..]);
      var ws := Walk(c);
      var k :| 0 <= k < |ws| && ws[k] == (q[1..], m);
      assert [c.name] + q[1..] == q;
      assert Under([c.name], ws)[k] == (q, m);
      assert (q, m) in piece;
    }
    WalkFromGrows(n, 0, i, (q, m));
  }

  /** No path of a walk occurs twice. */
  predicate DistinctPaths(ws: seq<(Path, Node)>)
  {
    forall i, j :: 0 <= i < j < |ws| ==> ws[i].0 != ws[j].0
  }

  /** The same prefix in front of distinct paths keeps them distinct. */
  lemma UnderDistinct(prefix: Path, ws: seq<(Path, Node)>)
    requires DistinctPaths(ws)
    ensures DistinctPaths(Under(prefix, ws))
  {
    var us := Under(prefix, ws);
    forall i, j | 0 <= i < j < |us|
      ensures us[i].0 != us[j].0
    {
      assert us[i].0[|prefix|..] == ws[i].0;
      assert us[j].0[|prefix|..] == ws[j].0;
    }
  }

  /** Every path the walk of `dir` yields from entry `i` on starts with the
      name of an entry at index `i` or later. */
  lemma {:induction false} WalkFromHeads(dir: Node, i: nat)
    requires dir.Dir? && i <= |dir.entries|
    ensures forall k :: 0 <= k < |WalkFrom(dir, i)| ==>
      && |WalkFrom(dir, i)[k].0| > 0
      && exists m :: i <= m < |dir.entries| && WalkFrom(dir, i)[k].0[0] == dir.entries[m].name
    decreases |dir.entries| - i
  {
    if i < |dir.entries| {
      WalkFromHeads(dir, i + 1);
      var e := dir.entries[i];
      var head := [([e.name], e)];
      var mid := Under([e.name], Walk(e));
      var tail := WalkFrom(dir, i + 1);
      assert WalkFrom(dir, i) == head + mid + tail;
      forall k | 0 <= k < |WalkFrom(dir, i)|
        ensures |WalkFrom(dir, i)[k].0| > 0
        ensures exists m :: i <= m < |dir.entries| && WalkFrom(dir, i)[k].0[0] == dir.entries[m].name
      {
        if k == 0 {
        } else if k < 1 + |mid| {
          assert WalkFrom(dir, i)[k] == mid[k - 1];
        } else {
          assert WalkFrom(dir, i)[k] == tail[k - 1 - |mid|];
        }
      }
    }
  }

  /** A walk never yields the empty path. */
  lemma WalkNonEmpty(n: Node)
    ensures forall k :: 0 <= k < |Walk(n)| ==> |Walk(n)[k].0| > 0
  {
    if n.Dir? {
      WalkFromHeads(n, 0);
    }
  }

  /** Two walks whose paths never meet concatenate into one without
      repeats. */
  lemma DistinctJoin(a: seq<(Path, Node)>, b: seq<(Path, Node)>)
    requires DistinctPaths(a) && DistinctPaths(b)
    requires forall i, j :: 0 <= i < |a| && 0 <= j < |b| ==> a[i].0 != b[j].0
    ensures DistinctPaths(a + b)
  {
    var ab := a + b;
    forall i, j | 0 <= i < j < |ab|
      ensures ab[i].0 != ab[j].0
    {
      if j < |a| {
        assert ab[i] == a[i] && ab[j] == a[j];
      } else if i >= |a| {
        assert ab[i] == b[i - |a|] && ab[j] == b[j - |a|];
      } else {
        assert ab[i] == a[i] && ab[j] == b[j - |a|];
      }
    }
  }

  /** In a well-formed tree the walk yields every path once. */
  lemma {:induction false} WalkDistinct(n: Node)
    requires WellFormed(n)
    ensures DistinctPaths(Walk(n))
    decreases n, 1
  {
    if n.Dir? {
      WalkFromDistinct(n, 0);
    }
  }

  lemma {:induction false} WalkFromDistinct(dir: Node, i: nat)
    requires dir.Dir? && i <= |dir.entries| && WellFormed(dir)
    ensures DistinctPaths(WalkFrom(dir, i))
    decreases dir, 0, |dir.entries| - i
  {
    if i < |dir.entries| {
      var e := dir.entries[i];
      assert e in dir.entries;
      var head := [([e.name], e)];
      var mid := Under([e.name], Walk(e));
      var tail := WalkFrom(dir, i + 1);
      WalkDistinct(e);
      UnderDistinct([e.name], Walk(e));
      WalkFromDistinct(dir, i + 1);
      WalkNonEmpty(e);
      WalkFromHeads(dir, i + 1);
      forall k | 0 <= k < |mid|
        ensures head[0].0 != mid[k].0
      {
        assert |mid[k].0| == 1 + |Walk(e)[k].0|;
      }
      DistinctJoin(head, mid);
      forall a, b | 0 <= a < |head + mid| && 0 <= b < |tail|
        ensures (head + mid)[a].0 != tail[b].0
      {
        var m :| i + 1 <= m < |dir.entries| && tail[b].0[0] == dir.entries[m].name;
        assert dir.entries[i].name != dir.entries[m].name;
        if a == 0 {
          assert (head + mid)[a].0 == [e.name];
        } else {
          assert (head + mid)[a] == mid[a - 1];
          assert mid[a - 1].0[0] == e.name;
        }
      }
      DistinctJoin(head + mid, tail);
      assert WalkFrom(dir, i) == head + mid + tail;
    }
  }

  /** `rglob('*')` in a well-formed tree yields every path once. */
  lemma BeneathDistinct(fs: Node, base: Path)
    requires WellFormed(fs)
    ensures DistinctPaths(Beneath(fs, base))
  {
    if Lookup(fs, base).Some? {
      var d := Lookup(fs, base).value;
      LookupWellFormed(fs, base);
      WalkDistinct(d);
      UnderDistinct(base, Walk(d));
    }
  }

  /** `p` lies strictly beneath `base`. */
  predicate StrictlyUnder(p: Path, base: Path)
  {
    |p| > |base| && p[..|base|] == base
  }

  /** `rglob('*')` from the path `base` of the tree `fs`: absolute paths of
      every entry strictly beneath it, nothing when `base` is missing or a file. */
  function Beneath(fs: Node, base: Path): seq<(Path, Node)>
  {
    match Lookup(fs, base)
    case None => []
    case Some(d) => Under(base, Walk(d))
  }

  /** What `rglob('*')` yields is exactly the set of entries strictly beneath
      `base`, each paired with the node found there; `BeneathDistinct` adds
      that each is yielded once. */
  lemma BeneathExact(fs: Node, base: Path, p: Path, m: Node)
    requires WellFormed(fs)
    ensures (p, m) in Beneath(fs, base) <==> StrictlyUnder(p, base) && Lookup(fs, p) == Some(m)
  {
    if Lookup(fs, base).Some? {
      var d := Lookup(fs, base).value;
      var ws := Walk(d);
      LookupWellFormed(fs, base);
      WalkSound(d);
      if (p, m) in Beneath(fs, base) {
        var k :| 0 <= k < |ws| && Under(base, ws)[k] == (p, m);
        LookupAppend(fs, base, ws[k].0);
        assert p[..|base|] == base;
      }
      if StrictlyUnder(p, base) && Lookup(fs, p) == Some(m) {
        var q := p[|base|..];
        assert p == base + q;
        LookupAppend(fs, base, q);
        WalkComplete(d, q);
        var k :| 0 <= k < |ws| && ws[k] == (q, m);
        assert Under(base, ws)[k] == (p, m);
      }
    } else if StrictlyUnder(p, base) && Lookup(fs, p).Some? {
      var q := p[|base|..];
      assert p == base + q;
      LookupAppend(fs, base, q);
    }
  }

  /** `path.suffix` (Python 3.12): from the last dot of the name, provided
      that dot is neither the first nor the last character; otherwise empty. */
  function Suffix(name: Name): string
  {
    var i := LastDot(name);
    if 0 < i < |name| - 1 then name[i..] else ""
  }

  /** `os.path.splitext(name)[1]`: from the last dot, unless only dots come
      before it (a leading-dot name has no extension); a trailing dot counts. */
  function SplitExt(name: Name): string
  {
    var i := LastDot(name);
    if i >= 0 && !AllDots(name[..i]) then name[i..] else ""
  }

  predicate AllDots(s: string)
  {
    forall k :: 0 <= k < |s| ==> s[k] == '.'
  }

  /** `name.rfind('.')`. */
  function LastDot(s: string): (i: int)
    ensures -1 <= i < |s|
    ensures i >= 0 ==> s[i] == '.'
    ensures forall k :: i < k < |s| ==> s[k] != '.'
  {
    if |s| == 0 then -1
    else if s[|s| - 1] == '.' then |s| - 1
    else LastDot(s[..|s| - 1])
  }

  /** The script kinds every variant accepts. */
  predicate Supported(name: Name)
  {
    Suffix(name) == ".sh" || Suffix(name) == ".py"
  }

  /** A name is a runnable script exactly when it ends in `.sh` or `.py` and
      has at least one character before that dot. */
  lemma SupportedIffEnding(name: Name)
    ensures Supported(name) <==>
      |name| >= 4 && (name[|name| - 3..] == ".sh" || name[|name| - 3..] == ".py")
  {
    var i := LastDot(name);
    var n := |name|;
    if n >= 4 && (name[n - 3..] == ".sh" || name[n - 3..] == ".py") {
      assert name[n - 3] == '.' && name[n - 2] != '.' && name[n - 1] != '.';
      assert i == n - 3;
    }
  }

  /** For a name that does not start with a dot, `splitext` agrees with
      `suffix` on every script name. */
  lemma SplitExtAgreesOnPlainScripts(name: Name)
    requires Supported(name) && name[0] != '.'
    ensures SplitExt(name) == Suffix(name)
  {
    var i := LastDot(name);
    assert !AllDots(name[..i]) by {
      assert name[..i][0] != '.';
    }
  }

  /** The two suffix rules part ways on a name made of dots and an
      extension: `..sh` counts as a shell script for `suffix` but has no
      extension for `splitext`. */
  lemma SuffixRulesDisagree()
    ensures Supported("..sh") && SplitExt("..sh") == ""
  {
    assert LastDot("..sh") == 1;
    assert AllDots("..sh"[..1]);
  }
}

=== FILE: gui.dfy ===
/** The two sinks of a GUI window, and the processes it started. `setText`
    replaces the output pane with one block, `append` adds a block, and
    `addItem` adds a line to the status list. */
module Gui {
  import opened FileSystem
  import opened Execution

  datatype Window = Window(output: seq<string>, status: seq<string>, launched: seq<Command>)

  /** The messages both multi-selection windows write. */
  const NoSelection := "Error: No script or folder selected."
  const NoValidScripts := "Error: No valid scripts selected."

  function NoScriptsFor(keyword: string): string
  {
    "No scripts found for '" + keyword + "'."
  }

  function UnsupportedFor(p: Path): string
  {
    "Error: Unsupported script type for " + Base(p) + "."
  }

  function SetText(w: Window, text: string): Window
  {
    w.(output := [text])
  }

  function Append(w: Window, text: string): Window
  {
    w.(output := w.output + [text])
  }

  function AddStatus(w: Window, line: string): Window
  {
    w.(status := w.status + [line])
  }

  function Launch(w: Window, c: Command): Window
  {
    w.(launched := w.launched + [c])
  }
}

=== FILE: resolver.dfy ===
/** Turning what the operator picked into a run list, as main2.py and main.py
    both do it: `get_scripts_in_folder`, the selection loop of
    `execute_selected_scripts`, and `get_scripts_by_name`. */
module Resolver {
  import opened Text
  import opened FileSystem

  /** The files among a walk whose name passes `keep`, in walk order. */
  function Files(ws: seq<(Path, Node)>, keep: Name -> bool): (r: seq<Path>)
    ensures forall p :: p in r <==> exists k :: 0 <= k < |ws| && ws[k].0 == p && ws[k].1.File? && keep(Base(p))
  {
    if ws == [] then []
    else
      var rest := Files(ws[1..], keep);
      assert forall k :: 0 < k < |ws| ==> ws[k] == ws[1..][k - 1];
      if ws[0].1.File? && keep(Base(ws[0].0)) then [ws[0].0] + rest else rest
  }

  /** Filtering a walk without repeated paths lists every path once. */
  lemma {:induction false} FilesDistinct(ws: seq<(Path, Node)>, keep: Name -> bool)
    requires DistinctPaths(ws)
    ensures Distinct(Files(ws, keep))
  {
    if ws != [] {
      var rest := Files(ws[1..], keep);
      FilesDistinct(ws[1..], keep);
      if ws[0].1.File? && keep(Base(ws[0].0)) {
        assert ws[0].0 !in rest;
        var r := [ws[0].0] + rest;
        forall i, j | 0 <= i < j < |r|
          ensures r[i] != r[j]
        {
          assert r[j] == rest[j - 1];
          if i > 0 {
            assert r[i] == rest[i - 1];
          }
        }
      }
    }
  }

  /** A supported script file sits at `p`. */
  predicate IsScript(fs: Node, p: Path)
  {
    Lookup(fs, p).Some? && Lookup(fs, p).value.File? && Supported(Base(p))
  }

  predicate IsDirectory(fs: Node, p: Path)
  {
    Lookup(fs, p).Some? && Lookup(fs, p).value.Dir?
  }

  /** `get_scripts_in_folder(folder)`: the `.sh`/`.py` files found by
      `rglob('*')`. */
  function FolderScripts(fs: Node, folder: Path): seq<Path>
  {
    Files(Beneath(fs, folder), Supported)
  }

  /** The folder expansion holds exactly the script files strictly beneath the
      folder, at any depth, each once: no directory and nothing outside it. */
  lemma FolderScriptsExact(fs: Node, folder: Path, p: Path)
    requires WellFormed(fs)
    ensures p in FolderScripts(fs, folder) <==> StrictlyUnder(p, folder) && IsScript(fs, p)
    ensures Distinct(FolderScripts(fs, folder))
  {
    var ws := Beneath(fs, folder);
    BeneathDistinct(fs, folder);
    FilesDistinct(ws, Supported);
    if p in FolderScripts(fs, folder) {
      var k :| 0 <= k < |ws| && ws[k].0 == p && ws[k].1.File? && Supported(Base(p));
      BeneathExact(fs, folder, p, ws[k].1);
    }
    if StrictlyUnder(p, folder) && IsScript(fs, p) {
      var m := Lookup(fs, p).value;
      BeneathExact(fs, folder, p, m);
      var k :| 0 <= k < |ws| && ws[k] == (p, m);
    }
  }

  /** What one selected path adds to the run list: a folder's scripts, a
      supported file itself, and nothing for anything else. */
  function Expand(fs: Node, p: Path): seq<Path>
  {
    match Lookup(fs, p)
    case Some(Dir(_, _)) => FolderScripts(fs, p)
    case Some(File(_)) => if Supported(Base(p)) then [p] else []
    case None => []
  }

  /** The selection loop of `execute_selected_scripts`: expansions
      concatenated in selection order, without removing repeats. Everything
      it lists passes the `.sh`/`.py` gate of `execute_script`. */
  function Resolve(fs: Node, selection: seq<Path>): (r: seq<Path>)
    ensures forall p | p in r :: Supported(Base(p))
  {
    if selection == [] then []
    else Expand(fs, selection[0]) + Resolve(fs, selection[1..])
  }

  /** Resolving two selections one after the other is resolving their
      concatenation: selection order is kept. */
  lemma {:induction false} ResolveAppend(fs: Node, a: seq<Path>, b: seq<Path>)
    ensures Resolve(fs, a + b) == Resolve(fs, a) + Resolve(fs, b)
  {
    if a == [] {
      assert a + b == b;
    } else {
      assert (a + b)[0] == a[0];
      assert (a + b)[1..] == a[1..] + b;
      ResolveAppend(fs, a[1..], b);
    }
  }

  /** The selected path `sel` brings `p` into the run list. */
  predicate Brings(fs: Node, sel: Path, p: Path)
  {
    (p == sel && IsScript(fs, sel)) || (IsDirectory(fs, sel) && StrictlyUnder(p, sel) && IsScript(fs, p))
  }

  /** A path is in the run list exactly when some selected path brings it:
      itself if it is a script, or a folder it lies beneath. */
  lemma {:induction false} ResolveMembers(fs: Node, selection: seq<Path>, p: Path)
    requires WellFormed(fs)
    ensures p in Resolve(fs, selection) <==> exists i :: 0 <= i < |selection| && Brings(fs, selection[i], p)
  {
    if selection != [] {
      ResolveMembers(fs, selection[1..], p);
      ExpandMembers(fs, selection[0], p);
      BringsInTail(fs, selection, p);
    }
  }

  /** One selected path adds `p` exactly when it brings `p`. */
  lemma ExpandMembers(fs: Node, sel: Path, p: Path)
    requires WellFormed(fs)
    ensures p in Expand(fs, sel) <==> Brings(fs, sel, p)
  {
    if IsDirectory(fs, sel) {
      FolderScriptsExact(fs, sel, p);
    }
  }

  /** Some selected path brings `p` exactly when the first does or one of the
      rest does. */
  lemma BringsInTail(fs: Node, selection: seq<Path>, p: Path)
    requires selection != []
    ensures (exists i :: 0 <= i < |selection| && Brings(fs, selection[i], p)) <==>
      Brings(fs, selection[0], p) || exists i :: 0 <= i < |selection[1..]| && Brings(fs, selection[1..][i], p)
  {
    if exists i :: 0 <= i < |selection| && Brings(fs, selection[i], p) {
      var i :| 0 <= i < |selection| && Brings(fs, selection[i], p);
      if i > 0 {
        assert Brings(fs, selection[1..][i - 1], p);
      }
    }
    if exists i :: 0 <= i < |selection[1..]| && Brings(fs, selection[1..][i], p) {
      var i :| 0 <= i < |selection[1..]| && Brings(fs, selection[1..][i], p);
      assert Brings(fs, selection[i + 1], p);
    }
  }

  /** A selection made only of files with unsupported suffixes resolves to
      nothing. */
  lemma {:induction false} UnsupportedOnlyResolvesEmpty(fs: Node, selection: seq<Path>)
    requires forall i :: 0 <= i < |selection| ==> Lookup(fs, selection[i]).Some? && Lookup(fs, selection[i]).value.File? && !Supported(Base(selection[i]))
    ensures Resolve(fs, selection) == []
  {
    if selection != [] {
      UnsupportedOnlyResolvesEmpty(fs, selection[1..]);
    }
  }

  /** Repeats are kept: a script picked directly and through its folder is run
      exactly twice. */
  lemma SelectedTwiceRunsTwice(fs: Node, folder: Path, p: Path)
    requires WellFormed(fs)
    requires IsDirectory(fs, folder) && StrictlyUnder(p, folder) && IsScript(fs, p)
    ensures multiset(Resolve(fs, [folder, p]))[p] == 2
  {
    FolderScriptsExact(fs, folder, p);
    var viaFolder := FolderScripts(fs, folder);
    assert Expand(fs, folder) == viaFolder;
    assert Expand(fs, p) == [p];
    assert Resolve(fs, [p]) == [p] by {
      assert [p][1..] == [];
    }
    assert Resolve(fs, [folder, p]) == viaFolder + [p] by {
      assert [folder, p][1..] == [p];
    }
    DistinctCount(viaFolder, p);
    assert multiset(viaFolder + [p]) == multiset(viaFolder) + multiset{p};
  }

  /** The keywords of the "Complete Check" and "Complete Fix" buttons. */
  const CheckKeyword := "chk"
  const FixKeyword := "rem"

  /** `get_scripts_by_name(filter_text)`: every file under `base` whose name
      contains the filter text, whatever its suffix. */
  function ScriptsByName(fs: Node, base: Path, keyword: string): (r: seq<Path>)
    ensures Lookup(fs, base).None? ==> r == []
  {
    Files(Beneath(fs, base), name => Contains(name, keyword))
  }

  /** The keyword search finds exactly the files strictly beneath `base`
      whose name contains the keyword, each once. */
  lemma ScriptsByNameExact(fs: Node, base: Path, keyword: string, p: Path)
    requires WellFormed(fs)
    ensures p in ScriptsByName(fs, base, keyword) <==>
      StrictlyUnder(p, base) && Lookup(fs, p).Some? && Lookup(fs, p).value.File? && Contains(Base(p), keyword)
    ensures Distinct(ScriptsByName(fs, base, keyword))
  {
    var ws := Beneath(fs, base);
    BeneathDistinct(fs, base);
    FilesDistinct(ws, name => Contains(name, keyword));
    if p in ScriptsByName(fs, base, keyword) {
      var k :| 0 <= k < |ws| && ws[k].0 == p && ws[k].1.File? && Contains(Base(p), keyword);
      BeneathExact(fs, base, p, ws[k].1);
    }
    if StrictlyUnder(p, base) && Lookup(fs, p).Some? && Lookup(fs, p).value.File? && Contains(Base(p), keyword) {
      var m := Lookup(fs, p).value;
      BeneathExact(fs, base, p, m);
      var k :| 0 <= k < |ws| && ws[k] == (p, m);
    }
  }
}

=== FILE: sequential_executor.dfy ===
/** main.py: the multi-selection window that runs its scripts one after the
    other on the calling thread. Only a zero exit reaches
    `handle_script_output`, so only a zero exit adds a status line; a
    non-zero exit appends the error banner and nothing else. */
module SequentialExecutor {
  import opened Text
  import opened FileSystem
  import opened Execution
  import opened Gui
  import opened Resolver
  import ThreadedExecutor

  /** The output block one script contributes: the unsupported-type error,
      the captured stdout of a zero exit, or the error banner. */
  function Block(p: Path, run: Runner): string
  {
    if !Supported(Base(p)) then UnsupportedFor(p)
    else
      var done := run(CommandFor(p));
      if done.exitCode == 0 then done.stdout else ErrorBanner(Base(p), done)
  }

  /** The status line one script adds: one for a supported script that
      exits with 0, judged on its stdout, and none otherwise. */
  function StatusOf(p: Path, run: Runner): seq<string>
  {
    if Supported(Base(p)) && run(CommandFor(p)).exitCode == 0 then
      [StatusLine(Base(p), Failed(run(CommandFor(p)).stdout))]
    else []
  }

  /** `execute_script`, with `handle_script_output` on a zero exit. */
  function ExecuteScript(w: Window, p: Path, run: Runner): (r: Window)
    ensures r.output == w.output + [Block(p, run)]
  {
    if !Supported(Base(p)) then Append(w, UnsupportedFor(p))
    else
      var c := CommandFor(p);
      var done := run(c);
      var w1 := Launch(w, c);
      if done.exitCode == 0 then
        AddStatus(Append(w1, done.stdout), StatusLine(Base(p), Failed(done.stdout)))
      else Append(w1, ErrorBanner(Base(p), done))
  }

  /** An unsupported suffix starts nothing and adds no status line; a
      supported one starts its interpreter once, and adds a status line
      exactly when it exits with 0. */
  lemma ExecuteScriptReports(w: Window, p: Path, run: Runner)
    ensures ExecuteScript(w, p, run).launched == w.launched + LaunchOf(p)
    ensures ExecuteScript(w, p, run).status == w.status + StatusOf(p, run)
  {
  }

  /** A supported script adds one status line exactly when it exits with 0,
      and that line reads FAIL exactly when its stdout holds `FAIL`. */
  lemma StatusOnlyOnSuccess(w: Window, p: Path, run: Runner)
    requires Supported(Base(p))
    ensures |ExecuteScript(w, p, run).status| == |w.status| + 1 <==> run(CommandFor(p)).exitCode == 0
    ensures |ExecuteScript(w, p, run).status| == |w.status| ==> run(CommandFor(p)).exitCode != 0
    ensures run(CommandFor(p)).exitCode == 0 ==>
      (ExecuteScript(w, p, run).status[|w.status|] == StatusLine(Base(p), true) <==>
       Contains(run(CommandFor(p)).stdout, "FAIL"))
  {
    ExecuteScriptReports(w, p, run);
    StatusLineShowsVerdict(Base(p), Failed(run(CommandFor(p)).stdout));
  }

  function Blocks(ps: seq<Path>, run: Runner): (r: seq<string>)
    ensures |r| == |ps|
  {
    if ps == [] then [] else [Block(ps[0], run)] + Blocks(ps[1..], run)
  }

  function Statuses(ps: seq<Path>, run: Runner): seq<string>
  {
    if ps == [] then [] else StatusOf(ps[0], run) + Statuses(ps[1..], run)
  }

  /** The `for script in ...: self.execute_script(script)` loop: each
      script runs to completion before the next one starts, so the output
      pane gains one block per script, in list order. */
  function RunInOrder(w: Window, ps: seq<Path>, run: Runner): (r: Window)
    ensures r.output == w.output + Blocks(ps, run)
    decreases |ps|
  {
    if ps == [] then w
    else
      var r := RunInOrder(ExecuteScript(w, ps[0], run), ps[1..], run);
      AppendAssoc(w.output, [Block(ps[0], run)], Blocks(ps[1..], run));
      r
  }

  /** The processes of a batch are those of its supported scripts, in list
      order. */
  lemma {:induction false} RunInOrderLaunches(w: Window, ps: seq<Path>, run: Runner)
    ensures RunInOrder(w, ps, run).launched == w.launched + Launches(ps)
    decreases |ps|
  {
    if ps != [] {
      var next := ExecuteScript(w, ps[0], run);
      ExecuteScriptReports(w, ps[0], run);
      RunInOrderLaunches(next, ps[1..], run);
      AppendAssoc(w.launched, LaunchOf(ps[0]), Launches(ps[1..]));
    }
  }

  /** The status lines of a batch are those of its scripts that exited with
      0, in list order. */
  lemma {:induction false} RunInOrderStatuses(w: Window, ps: seq<Path>, run: Runner)
    ensures RunInOrder(w, ps, run).status == w.status + Statuses(ps, run)
    decreases |ps|
  {
    if ps != [] {
      var next := ExecuteScript(w, ps[0], run);
      ExecuteScriptReports(w, ps[0], run);
      RunInOrderStatuses(next, ps[1..], run);
      AppendAssoc(w.status, StatusOf(ps[0], run), Statuses(ps[1..], run));
    }
  }

  /** main.py writes the same texts as main2.py, only in another order:
      main2.py shows the unsupported-type errors before every worker text,
      while main.py keeps list order. */
  lemma {:induction false} SameTextAsThreaded(ps: seq<Path>, run: Runner)
    ensures multiset(Blocks(ps, run)) ==
      multiset(ThreadedExecutor.Rejections(ps) + ThreadedExecutor.Reports(ps, run))
  {
    if ps != [] {
      var p, rest := ps[0], ps[1..];
      SameTextAsThreaded(rest, run);
      var rej, rep := ThreadedExecutor.Rejections(rest), ThreadedExecutor.Reports(rest, run);
      var b := Block(p, run);
      SameBlock(p, run);
      assert Blocks(ps, run) == [b] + Blocks(rest, run);
      AddFront(b, Blocks(rest, run), rej, rep);
      if Supported(Base(p)) {
        assert ThreadedExecutor.Reports(ps, run) == [b] + rep;
        assert ThreadedExecutor.Rejections(ps) == rej;
      } else {
        assert ThreadedExecutor.Rejections(ps) == [b] + rej;
        assert ThreadedExecutor.Reports(ps, run) == rep;
      }
    }
  }

  /** One more text in front keeps two lists of texts the same multiset,
      whichever part of the other it joins. */
  lemma AddFront(b: string, bs: seq<string>, rej: seq<string>, rep: seq<string>)
    requires multiset(bs) == multiset(rej + rep)
    ensures multiset([b] + bs) == multiset(rej + ([b] + rep))
    ensures multiset([b] + bs) == multiset(([b] + rej) + rep)
  {
  }

  /** One script's block in main.py is its worker's text in main2.py, or the
      same unsupported-type error. */
  lemma SameBlock(p: Path, run: Runner)
    ensures Supported(Base(p)) ==> Block(p, run) == ThreadedExecutor.Report(p, run)
    ensures !Supported(Base(p)) ==> Block(p, run) == UnsupportedFor(p)
  {
    if Supported(Base(p)) {
      assert ThreadedExecutor.WorkerCommand(p) == CommandFor(p);
    }
  }

  /** When every script is supported, the two panes read the same. */
  lemma {:induction false} SameTextWhenSupported(ps: seq<Path>, run: Runner)
    requires forall i :: 0 <= i < |ps| ==> Supported(Base(ps[i]))
    ensures Blocks(ps, run) == ThreadedExecutor.Reports(ps, run)
  {
    if ps != [] {
      SameTextWhenSupported(ps[1..], run);
      SameBlock(ps[0], run);
      assert ThreadedExecutor.Reports(ps, run) == [Block(ps[0], run)] + ThreadedExecutor.Reports(ps[1..], run);
    }
  }

  /** On a zero exit both windows add the same status line; on a non-zero
      exit main.py adds none while main2.py still adds one, judged on the
      error banner. */
  lemma StatusesPartWays(p: Path, run: Runner)
    requires Supported(Base(p))
    ensures run(CommandFor(p)).exitCode == 0 ==> StatusOf(p, run) == ThreadedExecutor.StatusOf(p, run)
    ensures run(CommandFor(p)).exitCode != 0 ==> StatusOf(p, run) == [] && |ThreadedExecutor.StatusOf(p, run)| == 1
  {
  }

  /** `execute_selected_scripts`: the same two error outcomes as main2.py,
      then the resolved list runs in order. */
  function ExecuteSelected(fs: Node, selection: seq<Path>, w: Window, run: Runner): (r: Window)
    ensures selection == [] ==> r.output == [NoSelection] && r.launched == w.launched && r.status == w.status
    ensures selection != [] && Resolve(fs, selection) == [] ==>
      r.output == [NoValidScripts] && r.launched == w.launched && r.status == w.status
    ensures Resolve(fs, selection) != [] ==>
      && r.output == w.output + Blocks(Resolve(fs, selection), run)
      && r.launched == w.launched + Launches(Resolve(fs, selection))
      && r.status == w.status + Statuses(Resolve(fs, selection), run)
  {
    if selection == [] then SetText(w, NoSelection)
    else
      var scripts := Resolve(fs, selection);
      if scripts == [] then SetText(w, NoValidScripts)
      else
        RunInOrderLaunches(w, scripts, run);
        RunInOrderStatuses(w, scripts, run);
        RunInOrder(w, scripts, run)
  }

  /** Every resolved script starts its interpreter once, in run-list order. */
  lemma SelectedEachLaunched(fs: Node, selection: seq<Path>, w: Window, run: Runner, i: nat)
    requires Resolve(fs, selection) != []
    requires i < |Resolve(fs, selection)|
    ensures |ExecuteSelected(fs, selection, w, run).launched| == |w.launched| + |Resolve(fs, selection)|
    ensures ExecuteSelected(fs, selection, w, run).launched[|w.launched| + i] == CommandFor(Resolve(fs, selection)[i])
  {
    var scripts := Resolve(fs, selection);
    assert forall k :: 0 <= k < |scripts| ==> scripts[k] in scripts;
    AllSupportedAllLaunch(scripts);
  }

  /** The body shared by `run_complete_check_scripts` and
      `run_complete_fix_scripts`, searching under `searchBase`. */
  function RunByKeyword(fs: Node, searchBase: Path, keyword: string, w: Window, run: Runner): (r: Window)
    ensures ScriptsByName(fs, searchBase, keyword) == [] ==> r == Append(w, NoScriptsFor(keyword))
    ensures ScriptsByName(fs, searchBase, keyword) != [] ==>
      && r.output == w.output + Blocks(ScriptsByName(fs, searchBase, keyword), run)
      && r.launched == w.launched + Launches(ScriptsByName(fs, searchBase, keyword))
      && r.status == w.status + Statuses(ScriptsByName(fs, searchBase, keyword), run)
  {
    var scripts := ScriptsByName(fs, searchBase, keyword);
    if scripts != [] then
      RunInOrderLaunches(w, scripts, run);
      RunInOrderStatuses(w, scripts, run);
      RunInOrder(w, scripts, run)
    else Append(w, NoScriptsFor(keyword))
  }

  /** `run_complete_check_scripts`: the "chk" batch. main.py searches a
      base of its own, which is not the tree's base. */
  function CompleteCheck(fs: Node, searchBase: Path, w: Window, run: Runner): (r: Window)
    ensures ScriptsByName(fs, searchBase, CheckKeyword) == [] ==>
      r == Append(w, "No scripts found for 'chk'.")
    ensures ScriptsByName(fs, searchBase, CheckKeyword) != [] ==>
      && r.output == w.output + Blocks(ScriptsByName(fs, searchBase, CheckKeyword), run)
      && r.launched == w.launched + Launches(ScriptsByName(fs, searchBase, CheckKeyword))
      && r.status == w.status + Statuses(ScriptsByName(fs, searchBase, CheckKeyword), run)
  {
    var r := RunByKeyword(fs, searchBase, CheckKeyword, w, run);
    assert NoScriptsFor(CheckKeyword) == "No scripts found for 'chk'.";
    r
  }

  /** `run_complete_fix_scripts`: the "rem" batch. */
  function CompleteFix(fs: Node, searchBase: Path, w: Window, run: Runner): (r: Window)
    ensures ScriptsByName(fs, searchBase, FixKeyword) == [] ==>
      r == Append(w, "No scripts found for 'rem'.")
    ensures ScriptsByName(fs, searchBase, FixKeyword) != [] ==>
      && r.output == w.output + Blocks(ScriptsByName(fs, searchBase, FixKeyword), run)
      && r.launched == w.launched + Launches(ScriptsByName(fs, searchBase, FixKeyword))
      && r.status == w.status + Statuses(ScriptsByName(fs, searchBase, FixKeyword), run)
  {
    var r := RunByKeyword(fs, searchBase, FixKeyword, w, run);
    assert NoScriptsFor(FixKeyword) == "No scripts found for 'rem'.";
    r
  }

  /** The check batch's list is exactly the files under the search base
      whose name holds "chk", each once, whatever their suffix. */
  lemma CheckBatchScope(fs: Node, searchBase: Path, p: Path)
    requires WellFormed(fs)
    ensures p in ScriptsByName(fs, searchBase, CheckKeyword) <==>
      StrictlyUnder(p, searchBase) && Lookup(fs, p).Some? && Lookup(fs, p).value.File? && Contains(Base(p), CheckKeyword)
    ensures Distinct(ScriptsByName(fs, searchBase, CheckKeyword))
  {
    ScriptsByNameExact(fs, searchBase, CheckKeyword, p);
  }

  /** The fix batch's list is exactly the files under the search base whose
      name holds "rem", each once, whatever their suffix. */
  lemma FixBatchScope(fs: Node, searchBase: Path, p: Path)
    requires WellFormed(fs)
    ensures p in ScriptsByName(fs, searchBase, FixKeyword) <==>
      StrictlyUnder(p, searchBase) && Lookup(fs, p).Some? && Lookup(fs, p).value.File? && Contains(Base(p), FixKeyword)
    ensures Distinct(ScriptsByName(fs, searchBase, FixKeyword))
  {
    ScriptsByNameExact(fs, searchBase, FixKeyword, p);
  }

  /** With no search base on disk, either batch appends only its not-found
      message and starts nothing. */
  lemma MissingSearchBase(fs: Node, searchBase: Path, w: Window, run: Runner)
    requires Lookup(fs, searchBase).None?
    ensures CompleteCheck(fs, searchBase, w, run) == Append(w, "No scripts found for 'chk'.")
    ensures CompleteFix(fs, searchBase, w, run) == Append(w, "No scripts found for 'rem'.")
  {
    assert NoScriptsFor(CheckKeyword) == "No scripts found for 'chk'.";
    assert NoScriptsFor(FixKeyword) == "No scripts found for 'rem'.";
  }
}

=== FILE: single_script_executor.dfy ===
/** app.py: the single-selection window. One current item at most; every
    outcome replaces the output pane (`setText`), and only a zero exit adds
    a status line, whose PASS form has no space after the colon. */
module SingleScriptExecutor {
  import opened Text
  import opened FileSystem
  import opened Execution
  import opened Gui
  import opened Resolver

  const NoScriptSelected := "Error: No script selected."
  const DirectorySelected := "Error: Please select a script file, not a directory."
  const UnsupportedType := "Error: Unsupported script type. Only .sh and .py are allowed."

  /** app.py's status line: `"<name>: FAIL"`, but `"<name>:PASS"`. */
  function AppStatusLine(name: Name, failed: bool): string
  {
    if failed then name + ": FAIL" else name + ":PASS"
  }

  /** app.py's FAIL line is the one the other windows write; its PASS line
      is not, and the two app.py lines never coincide. */
  lemma AppStatusLineDiffers(name: Name)
    ensures AppStatusLine(name, true) == StatusLine(name, true)
    ensures AppStatusLine(name, false) != StatusLine(name, false)
    ensures AppStatusLine(name, false) != AppStatusLine(name, true)
  {
    assert AppStatusLine(name, false)[|name| + 1] == 'P';
    assert StatusLine(name, false)[|name| + 1] == ' ';
    assert AppStatusLine(name, true)[|name| + 1] == ' ';
  }

  /** `execute_selected_script` with current item `current` (the path its
      item stores), on the tree `fs`. */
  function ExecuteSelectedScript(fs: Node, current: Option<Path>, w: Window, run: Runner): (r: Window)
    ensures |r.output| == 1
    ensures current.None? ==> r == SetText(w, NoScriptSelected)
    ensures current.Some? && IsDirectory(fs, current.value) ==> r == SetText(w, DirectorySelected)
    ensures current.Some? && !IsDirectory(fs, current.value) && !Supported(Base(current.value)) ==>
      r == SetText(w, UnsupportedType)
    ensures |r.launched| == |w.launched| + 1 <==>
      current.Some? && !IsDirectory(fs, current.value) && Supported(Base(current.value))
    ensures |r.launched| == |w.launched| || |r.launched| == |w.launched| + 1
    ensures w.launched <= r.launched && w.status <= r.status
    ensures |r.status| <= |w.status| + 1
    ensures |r.status| > |w.status| ==> |r.launched| > |w.launched|
  {
    match current
    case None => SetText(w, NoScriptSelected)
    case Some(p) =>
      if IsDirectory(fs, p) then SetText(w, DirectorySelected)
      else if !Supported(Base(p)) then SetText(w, UnsupportedType)
      else
        var c := CommandFor(p);
        var done := run(c);
        var w1 := Launch(w, c);
        if done.exitCode == 0 then
          AddStatus(SetText(w1, done.stdout), AppStatusLine(Base(p), Contains(done.stdout, "FAIL")))
        else SetText(w1, "Error executing script:\n" + done.stderr)
  }

  /** A runnable selection starts its interpreter (bash for `.sh`, python3
      for `.py`) on the stored path; a zero exit shows stdout and adds one
      status line, FAIL exactly when stdout holds `FAIL`; a non-zero exit
      shows only stderr under a fixed banner and adds no status line. */
  lemma RunOutcome(fs: Node, p: Path, w: Window, run: Runner)
    requires !IsDirectory(fs, p) && Supported(Base(p))
    ensures var r := ExecuteSelectedScript(fs, Some(p), w, run);
      && r.launched == w.launched + [CommandFor(p)]
      && (CommandFor(p).program == "bash" <==> Suffix(Base(p)) == ".sh")
      && (run(CommandFor(p)).exitCode == 0 ==>
            && r.output == [run(CommandFor(p)).stdout]
            && r.status == w.status + [AppStatusLine(Base(p), Failed(run(CommandFor(p)).stdout))])
      && (run(CommandFor(p)).exitCode != 0 ==>
            && r.output == ["Error executing script:\n" + run(CommandFor(p)).stderr]
            && r.status == w.status)
  {
  }

  /** A selection that passes the checks is exactly a supported file, or a
      supported name the tree does not hold. */
  lemma RunsExactly(fs: Node, p: Path, w: Window, run: Runner)
    ensures |ExecuteSelectedScript(fs, Some(p), w, run).launched| == |w.launched| + 1 <==>
      (IsScript(fs, p) || (Lookup(fs, p).None? && Supported(Base(p))))
  {
  }
}

=== FILE: text.dfy ===
/** Small string vocabulary shared by every variant: optional values, Python's
    substring test (`w in s`) and Python's ordering of `str` values. */
module Text {

  datatype Option<+T> = None | Some(value: T)

  /** Regrouping a concatenation, stated once so that callers need not
      re-derive it element by element. */
  lemma AppendAssoc<T>(a: seq<T>, b: seq<T>, c: seq<T>)
    ensures (a + b) + c == a + (b + c)
  {
  }

  /** No element occurs twice. */
  predicate Distinct<T(==)>(s: seq<T>)
  {
    forall i, j :: 0 <= i < j < |s| ==> s[i] != s[j]
  }

  /** In a list without repeats, an element that occurs, occurs once. */
  lemma {:induction false} DistinctCount<T>(s: seq<T>, x: T)
    requires Distinct(s)
    ensures multiset(s)[x] == if x in s then 1 else 0
  {
    if s != [] {
      assert s == [s[0]] + s[1..];
      DistinctCount(s[1..], x);
      if x == s[0] {
        assert x !in s[1..] by {
          forall k | 0 <= k < |s[1..]|
            ensures s[1..][k] != x
          {
            assert s[1..][k] == s[k + 1];
          }
        }
      }
    }
  }

  /** `p` is a prefix of `s`. */
  predicate StartsWith(s: string, p: string)
  {
    |p| <= |s| && s[..|p|] == p
  }

  /** Python's `w in s` on strings: `w` occurs in `s` as a contiguous run. */
  predicate Contains(s: string, w: string)
    decreases |s|
  {
    StartsWith(s, w) || (|s| > 0 && Contains(s[1..], w))
  }

  /** `w` occurs in `s` starting at index `i`. */
  ghost predicate OccursAt(s: string, w: string, i: int)
  {
    0 <= i && i + |w| <= |s| && s[i..i + |w|] == w
  }

  /** The recursive substring test agrees with the positional definition. */
  lemma {:induction false} ContainsIffOccurs(s: string, w: string)
    ensures Contains(s, w) <==> exists i :: OccursAt(s, w, i)
    decreases |s|
  {
    if Contains(s, w) {
      if StartsWith(s, w) {
        assert OccursAt(s, w, 0);
      } else {
        ContainsIffOccurs(s[1..], w);
        var i :| OccursAt(s[1..], w, i);
        assert s[i + 1..i + 1 + |w|] == s[1..][i..i + |w|];
        assert OccursAt(s, w, i + 1);
      }
    }
    if exists i :: OccursAt(s, w, i) {
      var i :| OccursAt(s, w, i);
      if i == 0 {
        assert StartsWith(s, w);
      } else {
        assert s[1..][i - 1..i - 1 + |w|] == s[i..i + |w|];
        assert OccursAt(s[1..], w, i - 1);
        ContainsIffOccurs(s[1..], w);
      }
    }
  }

  /** A separator that shares no character with `w` cannot be straddled by an
      occurrence of `w`, so `w` occurs in `a + sep + b` exactly when it occurs
      in `a` or in `b`. */
  lemma ContainsAcrossSeparator(a: string, sep: string, b: string, w: string)
    requires |sep| > 0
    requires forall k :: 0 <= k < |sep| ==> sep[k] !in w
    ensures Contains(a + sep + b, w) <==> Contains(a, w) || Contains(b, w)
  {
    ContainsFromParts(a, sep, b, w);
    if |w| == 0 {
      assert StartsWith(a, w);
    } else {
      ContainsInParts(a, sep, b, w);
    }
  }

  /** An occurrence in either part is an occurrence in the whole. */
  lemma ContainsFromParts(a: string, sep: string, b: string, w: string)
    ensures Contains(a, w) || Contains(b, w) ==> Contains(a + sep + b, w)
  {
    var s := a + sep + b;
    ContainsIffOccurs(s, w);
    if Contains(a, w) {
      ContainsIffOccurs(a, w);
      var i :| OccursAt(a, w, i);
      ShiftOccurrence(a, sep + b, w, i, 0);
      AppendAssoc(a, sep, b);
    } else if Contains(b, w) {
      ContainsIffOccurs(b, w);
      var j :| OccursAt(b, w, j);
      ShiftOccurrence(b, a + sep, w, j, |a + sep|);
    }
  }

  /** A non-empty `w` that occurs in the whole occurs in one of the parts. */
  lemma ContainsInParts(a: string, sep: string, b: string, w: string)
    requires |sep| > 0 && |w| > 0
    requires forall k :: 0 <= k < |sep| ==> sep[k] !in w
    ensures Contains(a + sep + b, w) ==> Contains(a, w) || Contains(b, w)
  {
    var s := a + sep + b;
    ContainsIffOccurs(s, w);
    if Contains(s, w) {
      var i :| OccursAt(s, w, i);
      OccurrenceAvoidsSeparator(a, sep, b, w, i);
      if i + |w| <= |a| {
        OccursInLeft(a, sep, b, w, i);
      } else {
        OccursInRight(a, sep, b, w, i);
      }
    }
  }

  /** An occurrence that ends before the separator lies in the left part. */
  lemma OccursInLeft(a: string, sep: string, b: string, w: string, i: int)
    requires OccursAt(a + sep + b, w, i) && i + |w| <= |a|
    ensures Contains(a, w)
  {
    AppendAssoc(a, sep, b);
    UnshiftOccurrence(a, sep + b, w, i);
    ContainsIffOccurs(a, w);
  }

  /** An occurrence that starts after the separator lies in the right part. */
  lemma OccursInRight(a: string, sep: string, b: string, w: string, i: int)
    requires OccursAt(a + sep + b, w, i) && i >= |a| + |sep|
    ensures Contains(b, w)
  {
    UnshiftOccurrence(b, a + sep, w, i - |a + sep|);
    ContainsIffOccurs(b, w);
  }

  /** An occurrence inside `t` is still one inside `t` with `u` put after it,
      or, at the shifted index, inside `u + t`. */
  lemma ShiftOccurrence(t: string, u: string, w: string, i: int, shift: int)
    requires OccursAt(t, w, i)
    requires shift == 0 || shift == |u|
    ensures shift == 0 ==> OccursAt(t + u, w, i)
    ensures shift == |u| ==> OccursAt(u + t, w, i + |u|)
  {
    if shift == 0 {
      assert (t + u)[i..i + |w|] == t[i..i + |w|];
    }
    if shift == |u| {
      assert (u + t)[i + |u|..i + |u| + |w|] == t[i..i + |w|];
    }
  }

  /** The converse: an occurrence lying wholly inside the `t` part of
      `t + u` (or of `u + t`) is an occurrence in `t`. */
  lemma UnshiftOccurrence(t: string, u: string, w: string, i: int)
    ensures OccursAt(t + u, w, i) && i + |w| <= |t| ==> OccursAt(t, w, i)
    ensures OccursAt(u + t, w, i + |u|) && i >= 0 ==> OccursAt(t, w, i)
  {
    if OccursAt(t + u, w, i) && i + |w| <= |t| {
      assert (t + u)[i..i + |w|] == t[i..i + |w|];
    }
    if OccursAt(u + t, w, i + |u|) && i >= 0 {
      assert (u + t)[i + |u|..i + |u| + |w|] == t[i..i + |w|];
    }
  }

  /** An occurrence of `w` in `a + sep + b` lies wholly inside `a` or wholly
      inside `b` when no character of `sep` appears in `w`. */
  lemma OccurrenceAvoidsSeparator(a: string, sep: string, b: string, w: string, i: int)
    requires |sep| > 0 && |w| > 0
    requires forall k :: 0 <= k < |sep| ==> sep[k] !in w
    requires OccursAt(a + sep + b, w, i)
    ensures i + |w| <= |a| || i >= |a| + |sep|
  {
    var s := a + sep + b;
    var k := if i < |a| then |a| else i;
    assert forall m :: i <= m < i + |w| ==> s[m] == w[m - i];
    assert forall m :: |a| <= m < |a| + |sep| ==> s[m] == sep[m - |a|];
    assert 0 <= k < |s| ==> s[k] in s;
  }

  /** Python's `a <= b` on `str`: code-point lexicographic order, a proper
      prefix sorting first. */
  predicate NameLe(a: string, b: string)
    decreases |a|
  {
    |a| == 0 || (|b| > 0 && (a[0] < b[0] || (a[0] == b[0] && NameLe(a[1..], b[1..]))))
  }

  lemma {:induction false} NameLeTotal(a: string, b: string)
    ensures NameLe(a, b) || NameLe(b, a)
    decreases |a|
  {
    if |a| > 0 && |b| > 0 && a[0] == b[0] {
      NameLeTotal(a[1..], b[1..]);
    }
  }

  lemma {:induction false} NameLeTransitive(a: string, b: string, c: string)
    requires NameLe(a, b) && NameLe(b, c)
    ensures NameLe(a, c)
    decreases |a|
  {
    if |a| > 0 && a[0] == b[0] && b[0] == c[0] {
      NameLeTransitive(a[1..], b[1..], c[1..]);
    }
  }
}

=== FILE: threaded_executor.dfy ===
/** main2.py: the multi-selection window whose scripts run on `ScriptWorker`
    threads. The loop of a batch runs to the end before any worker's
    `finished` signal is handled; the results are modelled as handled in
    submission order, and the string each carries is the one
    `ScriptWorker.run` builds. */
module ThreadedExecutor {
  import opened Text
  import opened FileSystem
  import opened Execution
  import opened Gui
  import opened Resolver

  /** `ScriptWorker.run`'s command: bash for `.sh`, python3 for any other
      suffix. */
  function WorkerCommand(p: Path): (c: Command)
    ensures c.script == p
    ensures c.program == "bash" <==> Suffix(Base(p)) == ".sh"
    ensures c.program == "python3" <==> Suffix(Base(p)) != ".sh"
    ensures Supported(Base(p)) ==> c == CommandFor(p)
  {
    Command(if Suffix(Base(p)) == ".sh" then "bash" else "python3", p)
  }

  /** The text `ScriptWorker.run` stores: stdout on success, otherwise the
      error banner followed by stderr and stdout. */
  function WorkerText(p: Path, done: Completed): string
  {
    if done.exitCode == 0 then done.stdout
    else ErrorBanner(Base(p), done)
  }

  /** The verdict `handle_script_output` reaches: on success it reads stdout;
      on a non-zero exit it reads the error text, which holds `FAIL` exactly
      when the script's name, its stderr or its stdout does. The exit code
      alone never makes it FAIL. */
  lemma WorkerVerdict(p: Path, done: Completed)
    ensures Failed(WorkerText(p, done)) <==>
      if done.exitCode == 0 then Failed(done.stdout)
      else Failed(Base(p)) || Failed(done.stderr) || Failed(done.stdout)
  {
    if done.exitCode != 0 {
      var banner := "Error executing ";
      var head := banner + Base(p);
      var tail := done.stderr + "\n" + done.stdout;
      assert WorkerText(p, done) == head + ":\n" + tail;
      ContainsAcrossSeparator(head, ":\n", tail, "FAIL");
      assert head == "" + banner + Base(p);
      ContainsAcrossSeparator("", banner, Base(p), "FAIL");
      ContainsAcrossSeparator(done.stderr, "\n", done.stdout, "FAIL");
    }
  }

  /** The verdict of one run, stated from the captured fields. */
  predicate RunFailed(p: Path, done: Completed)
  {
    if done.exitCode == 0 then Failed(done.stdout)
    else Failed(Base(p)) || Failed(done.stderr) || Failed(done.stdout)
  }

  /** The status line one script adds: none unless its suffix is supported. */
  function StatusOf(p: Path, run: Runner): seq<string>
  {
    if Supported(Base(p)) then [StatusLine(Base(p), RunFailed(p, run(CommandFor(p))))] else []
  }

  /** `execute_script` with `run_script_in_thread`, as the loop sees them: an
      unsupported suffix appends its error at once; a supported one starts
      its worker, whose text arrives later. */
  function Submit(w: Window, p: Path): (r: Window)
    ensures r.output == w.output + (if Supported(Base(p)) then [] else [UnsupportedFor(p)])
    ensures r.launched == w.launched + LaunchOf(p)
    ensures r.status == w.status
  {
    if !Supported(Base(p)) then Append(w, UnsupportedFor(p))
    else Launch(w, WorkerCommand(p))
  }

  /** The text the worker of `p` hands back. */
  function Report(p: Path, run: Runner): string
  {
    WorkerText(p, run(WorkerCommand(p)))
  }

  /** `handle_script_output` for the worker of `p`: its text is appended and
      one status line records the verdict of the run. */
  function HandleOutput(w: Window, p: Path, run: Runner): (r: Window)
    ensures r.output == w.output + [Report(p, run)]
    ensures r.launched == w.launched
    ensures r.status == w.status + [StatusLine(Base(p), RunFailed(p, run(WorkerCommand(p))))]
  {
    WorkerVerdict(p, run(WorkerCommand(p)));
    var text := Report(p, run);
    AddStatus(Append(w, text), StatusLine(Base(p), Failed(text)))
  }

  /** A handled result adds the status line the batch's tally expects. */
  lemma HandledStatus(w: Window, p: Path, run: Runner)
    requires Supported(Base(p))
    ensures HandleOutput(w, p, run).status == w.status + StatusOf(p, run)
  {
    assert WorkerCommand(p) == CommandFor(p);
  }

  /** The errors the loop of a batch appends, one per unsupported script, in
      list order. */
  function Rejections(ps: seq<Path>): seq<string>
  {
    if ps == [] then []
    else (if Supported(Base(ps[0])) then [] else [UnsupportedFor(ps[0])]) + Rejections(ps[1..])
  }

  /** The worker texts of a batch, one per supported script, in submission
      order. */
  function Reports(ps: seq<Path>, run: Runner): seq<string>
  {
    if ps == [] then []
    else (if Supported(Base(ps[0])) then [Report(ps[0], run)] else []) + Reports(ps[1..], run)
  }

  /** The status lines a batch adds: one per supported script, in list order. */
  function Statuses(ps: seq<Path>, run: Runner): (r: seq<string>)
  {
    if ps == [] then [] else StatusOf(ps[0], run) + Statuses(ps[1..], run)
  }

  /** The loop of `run_scripts`: it appends the unsupported-type errors and
      starts one worker per supported script, and adds no status line. */
  function SubmitAll(w: Window, ps: seq<Path>): (r: Window)
    ensures r.output == w.output + Rejections(ps)
    ensures r.launched == w.launched + Launches(ps)
    ensures r.status == w.status
    decreases |ps|
  {
    if ps == [] then w
    else
      var next := Submit(w, ps[0]);
      var r := SubmitAll(next, ps[1..]);
      AppendAssoc(w.output, if Supported(Base(ps[0])) then [] else [UnsupportedFor(ps[0])], Rejections(ps[1..]));
      AppendAssoc(w.launched, LaunchOf(ps[0]), Launches(ps[1..]));
      r
  }

  /** The `finished` signals of a batch's workers, handled once the loop has
      returned: each supported script's text and status line, in submission
      order; nothing more is started. */
  function DeliverAll(w: Window, ps: seq<Path>, run: Runner): (r: Window)
    ensures r.output == w.output + Reports(ps, run)
    ensures r.launched == w.launched
    ensures r.status == w.status + Statuses(ps, run)
    decreases |ps|
  {
    if ps == [] then w
    else if Supported(Base(ps[0])) then
      var next := HandleOutput(w, ps[0], run);
      HandledStatus(w, ps[0], run);
      var r := DeliverAll(next, ps[1..], run);
      assert Reports(ps, run) == [Report(ps[0], run)] + Reports(ps[1..], run);
      assert Statuses(ps, run) == StatusOf(ps[0], run) + Statuses(ps[1..], run);
      AppendAssoc(w.output, [Report(ps[0], run)], Reports(ps[1..], run));
      AppendAssoc(w.status, StatusOf(ps[0], run), Statuses(ps[1..], run));
      r
    else
      assert Reports(ps, run) == Reports(ps[1..], run);
      assert Statuses(ps, run) == Statuses(ps[1..], run);
      DeliverAll(w, ps[1..], run)
  }

  /** `run_scripts`: the loop runs to the end before any worker's result is
      handled, so every unsupported-type error of the batch precedes every
      worker text. Processes and status lines come from the supported
      scripts only, in list order. */
  function RunScripts(w: Window, ps: seq<Path>, run: Runner): (r: Window)
    ensures r.output == w.output + Rejections(ps) + Reports(ps, run)
    ensures r.launched == w.launched + Launches(ps)
    ensures r.status == w.status + Statuses(ps, run)
  {
    DeliverAll(SubmitAll(w, ps), ps, run)
  }

  /** When every script passes the gate, no error is appended and each
      script adds one status line. */
  lemma {:induction false} AllSupportedAllReport(ps: seq<Path>, run: Runner)
    requires forall i :: 0 <= i < |ps| ==> Supported(Base(ps[i]))
    ensures Rejections(ps) == []
    ensures |Statuses(ps, run)| == |ps|
  {
    if ps != [] {
      AllSupportedAllReport(ps[1..], run);
    }
  }

  /** When every script passes the gate, each one hands back its own text,
      in list order. */
  lemma {:induction false} AllSupportedReports(ps: seq<Path>, run: Runner)
    requires forall i :: 0 <= i < |ps| ==> Supported(Base(ps[i]))
    ensures |Reports(ps, run)| == |ps|
    ensures forall i :: 0 <= i < |ps| ==> Reports(ps, run)[i] == Report(ps[i], run)
  {
    if ps != [] {
      AllSupportedReports(ps[1..], run);
      assert Reports(ps, run) == [Report(ps[0], run)] + Reports(ps[1..], run);
    }
  }

  /** A batch with an unsupported script shows the error before every worker
      text, even when the script is listed last: here `a.sh` precedes
      `b.c` in the list, yet the pane reads the error first. */
  lemma ErrorsBeforeReports(w: Window, run: Runner)
    ensures RunScripts(w, [["a.sh"], ["b.c"]], run).output ==
      w.output + [UnsupportedFor(["b.c"]), Report(["a.sh"], run)]
  {
    var ps: seq<Path> := [["a.sh"], ["b.c"]];
    assert LastDot("a.sh") == 1;
    assert LastDot("b.c") == 1;
    assert ps[1..] == [["b.c"]];
    assert Rejections(ps) == [UnsupportedFor(["b.c"])];
    assert Reports(ps, run) == [Report(["a.sh"], run)];
  }

  /** Everything a selection resolves to passes the gate, so its batch
      appends no unsupported-type error. */
  lemma AllSupportedOnly(fs: Node, selection: seq<Path>, run: Runner)
    ensures Rejections(Resolve(fs, selection)) == []
  {
    var scripts := Resolve(fs, selection);
    assert forall k :: 0 <= k < |scripts| ==> scripts[k] in scripts;
    AllSupportedAllReport(scripts, run);
  }

  /** `execute_selected_scripts`: an empty selection and a selection that
      resolves to nothing each replace the output with their own message and
      start nothing; otherwise the resolved list runs as one batch. */
  function ExecuteSelected(fs: Node, selection: seq<Path>, w: Window, run: Runner): (r: Window)
    ensures selection == [] ==> r.output == [NoSelection] && r.launched == w.launched && r.status == w.status
    ensures selection != [] && Resolve(fs, selection) == [] ==>
      r.output == [NoValidScripts] && r.launched == w.launched && r.status == w.status
    ensures Resolve(fs, selection) != [] ==>
      && r.output == w.output + Reports(Resolve(fs, selection), run)
      && r.launched == w.launched + Launches(Resolve(fs, selection))
      && r.status == w.status + Statuses(Resolve(fs, selection), run)
  {
    if selection == [] then SetText(w, NoSelection)
    else
      var scripts := Resolve(fs, selection);
      if scripts == [] then SetText(w, NoValidScripts)
      else
        AllSupportedOnly(fs, selection, run);
        RunScripts(w, scripts, run)
  }

  /** Every script a non-empty selection resolves to starts exactly one
      process, in run-list order, and adds exactly one status line. */
  lemma SelectedAllRun(fs: Node, selection: seq<Path>, w: Window, run: Runner, i: nat)
    requires Resolve(fs, selection) != []
    requires i < |Resolve(fs, selection)|
    ensures |ExecuteSelected(fs, selection, w, run).launched| == |w.launched| + |Resolve(fs, selection)|
    ensures |ExecuteSelected(fs, selection, w, run).status| == |w.status| + |Resolve(fs, selection)|
    ensures ExecuteSelected(fs, selection, w, run).launched[|w.launched| + i] == CommandFor(Resolve(fs, selection)[i])
  {
    var scripts := Resolve(fs, selection);
    assert forall k :: 0 <= k < |scripts| ==> scripts[k] in scripts;
    AllSupportedAllLaunch(scripts);
    AllSupportedAllReport(scripts, run);
  }

  /** `run_scripts_by_keyword`: no match appends "No scripts found for
      '<keyword>'." and starts nothing; otherwise every match runs as one
      batch, and a match without a supported suffix only appends its error,
      ahead of every worker text. */
  function RunScriptsByKeyword(fs: Node, base: Path, keyword: string, w: Window, run: Runner): (r: Window)
    ensures ScriptsByName(fs, base, keyword) == [] ==>
      r == Append(w, NoScriptsFor(keyword))
    ensures ScriptsByName(fs, base, keyword) != [] ==>
      && r.output == w.output + Rejections(ScriptsByName(fs, base, keyword)) + Reports(ScriptsByName(fs, base, keyword), run)
      && r.launched == w.launched + Launches(ScriptsByName(fs, base, keyword))
      && r.status == w.status + Statuses(ScriptsByName(fs, base, keyword), run)
  {
    var scripts := ScriptsByName(fs, base, keyword);
    if scripts != [] then
      RunScripts(w, scripts, run)
    else Append(w, NoScriptsFor(keyword))
  }

  /** A missing base directory finds nothing, so the keyword batch only
      reports that no script was found. */
  lemma MissingBaseFindsNothing(fs: Node, base: Path, keyword: string, w: Window, run: Runner)
    requires Lookup(fs, base).None?
    ensures RunScriptsByKeyword(fs, base, keyword, w, run) == Append(w, NoScriptsFor(keyword))
  {
  }
}
